=== FILE: README.md ===
# MealDeals core, modelled in Dafny

MealDeals is a single-page application. It shows Australian supermarket
discounts, lets a user pick discounted products as ingredients, and asks a
locally hosted language model for recipes that use them. This project models
the decision-making core of that application as pure Dafny functions and proves
properties about it:

- `ProductList`: the main page's visible-product filter. It throws when a
  product has no category.
- `Selection`: adding and removing selected ingredients, and the names sent to
  the model.
- `Stream`: rebuilding the model's reply from streamed, newline-delimited JSON
  envelopes. Blank lines are dropped and lines that fail to decode are skipped.
- `Salvage`: the textual repair of the reassembled reply before the final parse.
- `Generation`: one press of "Generate Recipe". This covers the two-ingredient
  minimum, the error paths, and the assembly of one recipe per parsed element
  by object spreading over defaults.
- `DiscountProducts`: the product hook, modelled as written. It has a filter
  pass whose category stage keeps nothing, a stable sort by discount, and a
  published list that is the whole catalog. It also covers the category
  extraction. The corrected pass is kept beside it.
- `FilterBar`: filter edits, store and category toggles, clearing, and the
  active-filter counter.
- `RecipeCard`: the values both recipe cards derive. These are the total time,
  the discounted-ingredient count, the collapsed preview with its "+N more"
  line, and the numbered steps.
- `Types`, `Text`, `Seqs` and `Wrappers`: the records, the JavaScript string
  operations the core relies on, order-preserving filtering, and `Option` and
  `Result`.

Prices and percentages are `real`, and they are only compared. Minutes,
calories and servings are `int`. `JSON.parse` is never modelled as a parser.
Each place that parses takes the parse as a function parameter: `decode` for
the stream's envelope lines and `parse` for the repaired reply. The UUID
generator and the clock are parameters too (`freshId`, `now`).

The page's model follows the code as written. The two defects of the product
hook are listed under Findings. Each has a member for the code as written and
a corrected member.

## Model

| member | source | states |
|---|---|---|
| Types.StoreOptionsAreStoreNames | src/components/FilterBar.tsx:21 | the filter bar offers exactly the four retailer names of `store_name`, each once, and distinct retailers have distinct names |
| Types.FieldsOf | src/types/types.ts:26-48 | every property the `Recipe` interface requires is present in the object form of a recipe |
| Types.AsRecipe | src/types/types.ts:26-48 | an object is a `Recipe` exactly when it carries every required property, and reading it back gives the same properties |
| Types.AsRecipeFieldsOf | src/types/types.ts:26-48 | a recipe survives the round trip through its object form |
| Seqs.Filter | src/pages/Main.tsx:49-84 | `Array.prototype.filter` keeps exactly the elements that satisfy the callback, with their multiplicities and in their original order |
| Seqs.Unique | src/hooks/useDiscountProducts.ts:100-102 | `[...new Set(xs)]` is duplicate-free, has exactly the members of `xs`, and lists them in the order of their first occurrence in `xs` |
| Text.Trim | src/pages/Main.tsx:218 | `trim` removes a maximal run of ECMAScript white space from each end, and is empty exactly for all-space text |
| Text.TrimUnchanged | src/pages/Main.tsx:218 | text that neither starts nor ends with white space is left as it is by `trim` |
| Text.ContainsOccurs | src/pages/Main.tsx:51-55 | `includes` holds exactly when the needle occurs at some position of the text |
| Text.LowerIdempotent | src/pages/Main.tsx:54-55 | lower-casing twice is lower-casing once |
| Text.Split | src/pages/Main.tsx:201 | `split("\n")` returns at least one piece, and no piece holds the separator |
| Text.JoinSplit | src/pages/Main.tsx:201 | joining the pieces of `split` with the separator gives back the chunk |
| Text.SplitJoin | src/pages/Main.tsx:201 | splitting separator-free parts joined by the separator gives back the parts |
| ProductList.Visible | src/pages/Main.tsx:49-84 | the page filter fails with "Product category not found." exactly when some product's category is missing or empty; otherwise it keeps, in order and with every copy, exactly the products that pass search, store, category, minimum discount and maximum price |
| ProductList.VisibleIsFilter | src/pages/Main.tsx:49-84 | when every product has a category, the page filter is the plain order-preserving filter by the conjunction of the five checks |
| ProductList.InitialFiltersShow | src/pages/Main.tsx:24-84 | under the initial filters, a product with a category is shown exactly when its discount is non-negative and its price is at most 1000 |
| ProductList.SearchIgnoresCase | src/pages/Main.tsx:51-55 | the search result does not change when the search term is lower-cased first |
| Selection.AddToRecipe | src/pages/Main.tsx:86-101 | a product whose id is already selected leaves the selection unchanged; otherwise it is appended; afterwards the id is selected and ids stay distinct |
| Selection.AddIdempotent | src/pages/Main.tsx:86-101 | adding the same product twice is adding it once |
| Selection.RemoveFromSelected | src/pages/Main.tsx:103-105 | removal drops every product with the id and keeps all others in order; with distinct ids it shortens the selection by one; an id that is not selected changes nothing |
| Selection.RemoveUndoesAdd | src/pages/Main.tsx:86-105 | removing a freshly added product restores the earlier selection |
| Selection.IngredientNames | src/pages/Main.tsx:161 | one name per selected product, in selection order |
| Stream.NonBlankIsTrimTruthy | src/pages/Main.tsx:201 | a line survives `filter((line) => line.trim())` exactly when it holds a non-white-space character |
| Stream.ChunkLines | src/pages/Main.tsx:200-201 | the lines taken from a chunk are its non-blank pieces between `'\n'` characters (a `'\r'` stays in its line), every copy of each, in their order; blank pieces are dropped |
| Stream.Collect | src/pages/Main.tsx:203-214 | the buffer built from a list of lines is empty when no line decodes, and is the line's fragment for one line that decodes |
| Stream.Assembled | src/pages/Main.tsx:193-215 | the buffer of a one-chunk stream is that chunk's lines collected, and it is empty when no line of the stream decodes |
| Stream.StreamLinesNonBlank | src/pages/Main.tsx:196-203 | every line handed to the decoder, over the whole stream, is non-blank and holds no `'\n'` |
| Stream.AssembledChunkwise | src/pages/Main.tsx:196-215 | the buffer of a stream is the buffer of its first chunks followed by the buffer of the rest |
| Stream.CollectSkipsFailures | src/pages/Main.tsx:203-214 | lines that fail to decode contribute nothing: dropping them first gives the same buffer |
| Stream.InvalidLineSkipped | src/pages/Main.tsx:201-214 | a malformed line between two good lines leaves the good lines' fragments adjacent and in order |
| Stream.ReadChunk | src/pages/Main.tsx:203-214 | the per-line loop appends, in order, the fragment of every line that decodes |
| Stream.ReadStream | src/pages/Main.tsx:193-215 | the read loop ends with the buffer that the chunkwise reference definition gives |
| Salvage.StripDangling | src/pages/Main.tsx:221 | `replace(/,\s*\{$/g, "")` cuts the text at a trailing comma that only white space separates from a final brace, and leaves other text unchanged |
| Salvage.DanglingUnique | src/pages/Main.tsx:221 | the regular expression can match at one position at most |
| Salvage.DropExtraBrackets | src/pages/Main.tsx:223-225 | the loop removes only closing brackets, leaves no `]]` at the end, keeps a final `]`, and leaves text not ending in `]]` unchanged |
| Salvage.CutTail | src/pages/Main.tsx:220-225 | the first two steps only cut text off the end, their result never ends in `]]`, and text with nothing to repair passes unchanged |
| Salvage.CloseArray | src/pages/Main.tsx:227-229 | a `]` is appended exactly when the text starts with `[` and does not end with `]`; otherwise the text is unchanged |
| Salvage.RepairTrimmed | src/pages/Main.tsx:220-229 | on trimmed text the three steps give a prefix, possibly followed by one `]`, that never ends in `]]` and closes any array it opens; text with no dangling `,{`, no trailing `]]` and no unclosed array comes back unchanged |
| Salvage.Repair | src/pages/Main.tsx:217-229 | the cleaned text is a prefix of the trimmed buffer, possibly followed by one `]`; it never ends in `]]`; if it opens an array it closes it; a trimmed buffer that needs no repair is returned as it is |
| Salvage.RepairTruncatedArray | src/pages/Main.tsx:217-229 | an array cut off after `,{` is closed right after its last complete object |
| Salvage.DropToOneBracket | src/pages/Main.tsx:223-225 | any run of one or more `]` after a final `}` is cut back to a single `]` |
| Salvage.RepairClosesObject | src/pages/Main.tsx:217-229 | an array whose text stops right after a complete object gets its `]` appended |
| Salvage.RepairDropsBrackets | src/pages/Main.tsx:217-229 | one or more `]` after the last complete object come out as exactly one |
| Salvage.RepairCollapsesBrackets | src/pages/Main.tsx:217-229 | for any number of `]` after the last complete object, none included, the repaired text is that object followed by exactly one `]` |
| Generation.SpreadIdentity | src/pages/Main.tsx:244-251 | spreading nothing over an object, or an object over nothing, gives that object |
| Generation.SpreadAssociative | src/pages/Main.tsx:244-251 | successive spreads can be grouped either way |
| Generation.BuildRecipe | src/pages/Main.tsx:244-251 | a parsed element's own properties win; id, time stamps, `generated_from_discounts` and `discount_products_used` fall back to the defaults; nothing else is added |
| Generation.BuildRecipes | src/pages/Main.tsx:242-254 | one record per parsed element, in order, each with its own drawn id |
| Generation.BuiltRecipeComplete | src/pages/Main.tsx:244-251 | an element with title, ingredients, steps and servings becomes a complete recipe, marked as generated from discounts unless it says otherwise |
| Generation.BuildKeepsCompleteRecipe | src/pages/Main.tsx:244-251 | an element that is already a complete recipe comes out as that very recipe |
| Generation.BuiltIdsDistinct | src/pages/Main.tsx:242-245 | distinct drawn ids give distinct recipe ids when no element brings its own id |
| Generation.GenerateRecipes | src/pages/Main.tsx:146-279 | fewer than two selected products changes nothing and sends no request; otherwise the selected names are sent; every failure reports its message, clears the recipes and keeps the selection; an unparsable reply reports "Invalid JSON response: " and the cleaned text; success empties the selection and publishes the built recipes |
| Generation.FailedRunCanRetry | src/pages/Main.tsx:146-279 | after a failure the selection still meets the minimum, so pressing again sends a request |
| Generation.SuccessfulRunConsumesSelection | src/pages/Main.tsx:146-279 | after a success the selection is empty, so pressing again is rejected and changes nothing |
| DiscountProducts.InsertPermutes | src/hooks/useDiscountProducts.ts:92 | one insertion step adds exactly the inserted product and loses none |
| DiscountProducts.InsertSorted | src/hooks/useDiscountProducts.ts:92 | inserting into a list sorted by discount keeps it sorted |
| DiscountProducts.InsertStable | src/hooks/useDiscountProducts.ts:92 | an inserted product goes ahead of the products of its own discount already in the list |
| DiscountProducts.SortByDiscount | src/hooks/useDiscountProducts.ts:92 | the sort yields a permutation, non-increasing by `percentage_off` |
| DiscountProducts.SortStable | src/hooks/useDiscountProducts.ts:92 | products of equal discount keep their input order |
| DiscountProducts.SortSorted | src/hooks/useDiscountProducts.ts:92 | sorting an already sorted list changes nothing |
| DiscountProducts.SortedClassesDetermine | src/hooks/useDiscountProducts.ts:92 | two sorted lists with the same products in each discount class, in the same order, are equal |
| DiscountProducts.IsStableSortOf | src/hooks/useDiscountProducts.ts:92 | a list is the result of the sort exactly when it is sorted and keeps each discount class in input order |
| DiscountProducts.Pipeline | src/hooks/useDiscountProducts.ts:51-92 | the pass keeps only active catalog products and orders them by non-increasing discount |
| DiscountProducts.StoreStageIsFilter | src/hooks/useDiscountProducts.ts:58-62 | the store stage is skipped with no store selected, and is a store filter otherwise |
| DiscountProducts.CategoryStageIsFilter | src/hooks/useDiscountProducts.ts:64-70 | the category stage as written is a filter by the callback's truthiness, skipped with no category selected |
| DiscountProducts.SearchStageIsFilter | src/hooks/useDiscountProducts.ts:72-77 | the search stage is skipped for an empty term and is a case-insensitive name filter otherwise |
| DiscountProducts.MinDiscountStageIsFilter | src/hooks/useDiscountProducts.ts:79-83 | the discount stage is skipped at a threshold of 0 or less |
| DiscountProducts.MaxPriceStageIsFilter | src/hooks/useDiscountProducts.ts:85-89 | the price stage is skipped at a ceiling of 1000 or more |
| DiscountProducts.StagesAreOneFilter | src/hooks/useDiscountProducts.ts:54-89 | the chain of stages is one order-preserving filter by the conjunction of all stages |
| DiscountProducts.PipelineIsSortedFilter | src/hooks/useDiscountProducts.ts:51-92 | the pass equals the stable sort of that single filter |
| DiscountProducts.StoreStageKeeps | src/hooks/useDiscountProducts.ts:58-62 | with stores selected, a product survives the store stage exactly when its store is selected |
| DiscountProducts.CategorySelectionEmptiesPipeline | src/hooks/useDiscountProducts.ts:64-70 | as written, any category selection empties the category stage and the whole pass |
| DiscountProducts.SentinelsSkipStages | src/hooks/useDiscountProducts.ts:79-89 | the sentinels 0 and 1000 skip their stages; other values keep exactly the products that meet them |
| DiscountProducts.ActiveCategories | src/hooks/useDiscountProducts.ts:99-101 | the listed categories are exactly the truthy categories of active products |
| DiscountProducts.ActiveCategoriesOne | src/hooks/useDiscountProducts.ts:99-101 | one product contributes its category exactly when it is active and the category is truthy |
| DiscountProducts.ActiveCategoriesAppend | src/hooks/useDiscountProducts.ts:99-101 | `map` then `filter(Boolean)` keeps catalog order and every copy: the categories of two lists joined are their categories joined |
| DiscountProducts.ExtractCategories | src/hooks/useDiscountProducts.ts:98-104 | the category list is duplicate-free, in first-occurrence order, and holds exactly the non-empty categories of active products |
| DiscountProducts.Refresh | src/hooks/useDiscountProducts.ts:94-104 | as written, the published products are the whole catalog; the categories are exactly the distinct non-empty categories of active products, in first-occurrence order, as `extractCategories` computes them |
| DiscountProducts.PublishedIgnoresFilters | src/hooks/useDiscountProducts.ts:94 | as written, the published list is the same under any filters and keeps inactive rows that the pass drops |
| DiscountProducts.IntendedPipelineKeeps | src/hooks/useDiscountProducts.ts:51-92 | the corrected pass keeps exactly the active catalog products that pass every selected filter, sorted by discount |
| DiscountProducts.IntendedCategoryKeepsMatches | src/hooks/useDiscountProducts.ts:64-70 | selecting an active product's category keeps it in the corrected pass and empties the pass as written |
| DiscountProducts.IntendedRefresh | src/hooks/useDiscountProducts.ts:94 | the corrected hook publishes only active catalog products, sorted by discount, with the same categories |
| DiscountProducts.IntendedPageShows | src/pages/Main.tsx:49-84 | with the corrected hook and every active row categorised, the page's filter succeeds and lists exactly the active catalog products that pass it |
| DiscountProducts.UncategorisedInactiveRow | src/hooks/useDiscountProducts.ts:94 | an inactive row without a category makes the page's filter throw as written, and not with the corrected hook |
| FilterBar.UpdateFilters | src/components/FilterBar.tsx:30-32 | each field an edit supplies replaces the old value, and every other field is kept |
| FilterBar.UpdateEmpty | src/components/FilterBar.tsx:30-32 | an edit that supplies nothing changes nothing |
| FilterBar.UpdateTwice | src/components/FilterBar.tsx:30-32 | two edits in a row are one edit in which the later values win |
| FilterBar.Toggle | src/components/FilterBar.tsx:34-46 | toggling flips the value's membership and no other value's; an absent value is appended; a present one is removed and the list shrinks |
| FilterBar.ToggleTwiceAbsent | src/components/FilterBar.tsx:34-46 | toggling an absent value twice restores the list |
| FilterBar.ToggleDuplicateFree | src/components/FilterBar.tsx:34-46 | on a duplicate-free list, toggling keeps it duplicate-free and changes its length by exactly one |
| FilterBar.ToggleStore | src/components/FilterBar.tsx:34-39 | only the store list changes |
| FilterBar.ToggleCategory | src/components/FilterBar.tsx:41-46 | only the category list changes |
| FilterBar.ActiveCountZero | src/components/FilterBar.tsx:58-63 | the counter is zero exactly when no filter restricts anything |
| FilterBar.ClearFilters | src/components/FilterBar.tsx:48-56 | clearing gives the page's initial filters whatever the current ones are, and the counter then reads 0 |
| FilterBar.ActiveCount | src/components/FilterBar.tsx:58-63 | the counter is at least the number of selected stores and categories and at most three more; it equals that number exactly when no search term, minimum discount or price ceiling is set |
| FilterBar.ToggleStoreCount | src/components/FilterBar.tsx:34-63 | on a duplicate-free store list, a store toggle moves the counter by exactly one |
| FilterBar.ToggleCategoryCount | src/components/FilterBar.tsx:41-63 | on a duplicate-free category list, a category toggle moves the counter by exactly one |
| FilterBar.SearchEditCount | src/components/FilterBar.tsx:30-32 | setting the search term drops the old term's one if it was non-empty and adds one if the new term is non-empty |
| FilterBar.MinDiscountEditCount | src/components/FilterBar.tsx:30-32 | setting the minimum discount counts one exactly when the new value is positive, in place of the old value's one |
| FilterBar.MaxPriceEditCount | src/components/FilterBar.tsx:30-32 | setting the price ceiling counts one exactly when the new value is below 1000, in place of the old value's one |
| RecipeCard.TotalTime | src/components/RecipeCard.tsx:27-28 | the total time is prep plus cook, and a missing value counts as 0 |
| RecipeCard.DiscountedCount | src/components/RecipeCard.tsx:29-31 | the count never exceeds the number of ingredients; it is 0 exactly when none is on sale and full exactly when all are |
| RecipeCard.DiscountedCountIsFilterLength | src/components/RecipeCard.tsx:29-31 | the length of the card's filtered list equals the count, and a missing flag counts as not on sale |
| RecipeCard.DiscountedCountAppend | src/components/RecipeCard.tsx:29-31 | the count of two lists together is the sum of their counts |
| RecipeCard.ShownIngredients | src/components/RecipeCard.tsx:114-115 | collapsed, the card lists the first min(3, n) ingredients; expanded, it lists all of them |
| RecipeCard.MoreCount | src/components/RecipeCard.tsx:138-144 | "+N more" appears exactly on a collapsed card with more than three ingredients, with N = n - 3 |
| RecipeCard.PreviewAccountsForAll | src/components/RecipeCard.tsx:114-144 | listed plus hidden equals n; the listed ones are the head of the list |
| RecipeCard.NumberedSteps | src/components/RecipeCard.tsx:148-165 | expanded, every step is shown in order and numbered 1, 2, 3, ...; collapsed, none is shown |
| RecipeCard.ShownText | src/components/RecipeCard.tsx:58-62 | an optional text is rendered exactly when present and non-empty |
| RecipeCard.ShownNumber | src/components/RecipeCard.tsx:88-90 | an absent number renders nothing, a present 0 renders as the bare text "0", and any other present number renders its badge |
| RecipeCard.Card | src/components/RecipeCard.tsx:20-181 | the time badge appears exactly when the total time is positive; the discounted badge appears exactly when some ingredient is on sale and shows their count; rows, "+N more" and steps follow the preview rules; the calories slot follows `ShownNumber` |
| RecipeCard.SmallCard | src/components/RecipeCard.tsx:183-327 | the small card has no discounted badge and no "ON SALE" badges, but keeps the sale colouring |
| RecipeCard.CardsAgree | src/components/RecipeCard.tsx:190-290 | both cards show the same time, calories slot, preview rows, hidden count and steps |

## Left out

- Loading the catalog: the CSV fetch, Papa Parse, the module-level cache and its error toast. The catalog is a parameter.
- The network: the HTTP request, `response.ok`, the error body, `getReader` and `TextDecoder`. The reply is given as already decoded chunks, or as the message of the error raised.
- `JSON.parse`: it is a function parameter. A property of the wrong JSON type, a non-object element and a non-array value are not distinguished further. They are folded into the parameter's answer, and a non-array value becomes the `NotArray` case with its `TypeError` message.
- `crypto.randomUUID` and `new Date().toISOString()` are parameters. The source reads the clock twice per element; the model uses one instant, `now`, for both stamps of every recipe of a run.
- Properties of a parsed element that `Recipe` does not declare: the spread copies them onto the recipe, but `RecipeFields` holds only the declared properties, so they are not represented.
- `createPrompt` and the prompt text. Only the ingredient names it receives are modelled.
- The filter bar's controls: which check boxes it draws (only the first eight categories) and the `Number(...)` conversion of the two numeric inputs. The model takes the value an edit supplies, already converted.
- Toasts, console logging, the active tab, the loading and `isGenerating` flags, the favourite button, and all markup and styling.
- The `done` flag of a stream envelope: the code only logs it.
- `totalSavings` and its formatting with `toFixed`: they are display arithmetic on floating point.
- Text.Lower: lower-cases ASCII letters only, because full Unicode case mapping is not modelled.
- RecipeCard.Card: is stated for complete recipes only. The page renders every generated element, complete or not; the card throws a `TypeError` at `recipe.ingredients.filter` for an element without `ingredients`, and at `recipe.cooking_steps.map` once expanded for one without `cooking_steps`. A missing `title` or `servings` would render as empty text. Rendering incomplete elements is not modelled.
- Floating point: prices and percentages are exact reals, so `NaN`, infinities and rounding are not modelled. The recipe's `calories`, `prep_time_minutes`, `cook_time_minutes` and `servings` are whole numbers in the model, although the interface declares them `number`: a fractional value such as `7.5` minutes, which the card would add as a fraction, is not represented. The comparator `b.percentage_off - a.percentage_off` is modelled as an exact comparison.
- React's scheduling: the hook's effect, `refetch`, and the asynchronous interleaving of state updates. Each run is modelled as one synchronous step.
- `useRecipes`, `Index.tsx` and the other pages and components: they are outside this core.

## Findings

| source | as written | input that shows it | evidently intended | confidence | as-written member | corrected member |
|---|---|---|---|---|---|---|
| src/hooks/useDiscountProducts.ts:64-70 | the category callback evaluates `includes` inside a block with no `return`, so it yields `undefined` and the stage keeps nothing | filters with categories `["Dairy"]` over a catalog holding an active product of category "Dairy": the pass is empty | keep the products whose category is selected | high, not executed | DiscountProducts.CategorySelectionEmptiesPipeline | DiscountProducts.IntendedCategoryKeepsMatches |
| src/hooks/useDiscountProducts.ts:91-94 | the filtered, sorted list is computed and then discarded, because `setProducts(allProducts)` publishes the whole catalog | any filters over a catalog with an inactive product: the inactive product is published, and the published list is the same under all filters; if that inactive product has no category, the page's filter throws (`UncategorisedInactiveRow`) | publish the filtered, sorted list | high, not executed | DiscountProducts.PublishedIgnoresFilters | DiscountProducts.IntendedRefresh |

=== FILE: discount_products.dfy ===
/**
 * The product hook: the filter-and-sort pass over the loaded catalog, the list it
 * actually publishes, and the category list it extracts.
 */
module DiscountProducts {
  import opened Wrappers
  import opened Seqs
  import opened Text
  import opened Types
  import ProductList

  // ---------------------------------------------------------------------------
  // The filter stages, in the order the hook applies them.

  /** `p.is_active === true`. */
  predicate IsActive(p: Product) {
    p.is_active
  }

  function ActiveOnly(catalog: seq<Product>): seq<Product> {
    Filter(catalog, IsActive)
  }

  predicate InStores(p: Product, f: FilterState) {
    StoreName(p.store_name) in f.stores
  }

  /** The store stage runs only when some store is selected. */
  function ByStore(ps: seq<Product>, f: FilterState): seq<Product> {
    if |f.stores| > 0 then Filter(ps, p => InStores(p, f)) else ps
  }

  /**
   * The category callback as written: its block evaluates `includes` but has no
   * `return`, so the callback yields `undefined` for every product.
   */
  function CategoryCallback(p: Product, f: FilterState): Option<bool> {
    None
  }

  /** How `Array.prototype.filter` reads a callback result: only `true` keeps. */
  predicate Truthy(b: Option<bool>) {
    b == Some(true)
  }

  function ByCategory(ps: seq<Product>, f: FilterState): seq<Product> {
    if |f.categories| > 0 then Filter(ps, p => Truthy(CategoryCallback(p, f))) else ps
  }

  predicate NameMatches(p: Product, f: FilterState) {
    ContainsIgnoringCase(p.product_name, f.searchTerm)
  }

  /** The search stage runs only for a non-empty search term. */
  function BySearch(ps: seq<Product>, f: FilterState): seq<Product> {
    if f.searchTerm != "" then Filter(ps, p => NameMatches(p, f)) else ps
  }

  /** The minimum-discount stage runs only for a positive threshold. */
  function ByMinDiscount(ps: seq<Product>, f: FilterState): seq<Product> {
    if f.minDiscount > 0.0 then Filter(ps, p => ProductList.MeetsMinDiscount(p, f)) else ps
  }

  /** The price stage runs only below the "no limit" ceiling. */
  function ByMaxPrice(ps: seq<Product>, f: FilterState): seq<Product> {
    if f.maxPrice < UnboundedPrice then Filter(ps, p => ProductList.MeetsMaxPrice(p, f)) else ps
  }

  // ---------------------------------------------------------------------------
  // The sort: `sort((a, b) => b.percentage_off - a.percentage_off)`, which is stable.

  ghost predicate SortedByDiscount(s: seq<Product>) {
    forall i, j :: 0 <= i < j < |s| ==> s[i].percentage_off >= s[j].percentage_off
  }

  /** Inserts `x` before the first element whose discount does not exceed its own. */
  function InsertByDiscount(x: Product, s: seq<Product>): seq<Product> {
    if s == [] || s[0].percentage_off <= x.percentage_off then [x] + s
    else [s[0]] + InsertByDiscount(x, s[1..])
  }

  /** Insertion adds exactly the one product. */
  lemma {:induction false} InsertPermutes(x: Product, s: seq<Product>)
    ensures multiset(InsertByDiscount(x, s)) == multiset(s) + multiset{x}
  {
    if s != [] && s[0].percentage_off > x.percentage_off {
      InsertPermutes(x, s[1..]);
      assert s == [s[0]] + s[1..];
    }
  }

  /** Insertion into a list sorted by discount keeps it sorted. */
  lemma {:induction false} InsertSorted(x: Product, s: seq<Product>)
    requires SortedByDiscount(s)
    ensures SortedByDiscount(InsertByDiscount(x, s))
  {
    var r := InsertByDiscount(x, s);
    if s == [] || s[0].percentage_off <= x.percentage_off {
      forall i, j | 0 <= i < j < |r| ensures r[i].percentage_off >= r[j].percentage_off {
        assert r[j] == s[j - 1];
        if i == 0 {
          assert s[0].percentage_off >= s[j - 1].percentage_off;
        } else {
          assert r[i] == s[i - 1];
        }
      }
    } else {
      var rest := InsertByDiscount(x, s[1..]);
      SortedTail(s);
      InsertSorted(x, s[1..]);
      InsertBound(x, s[1..], s[0].percentage_off);
      forall i, j | 0 <= i < j < |r| ensures r[i].percentage_off >= r[j].percentage_off {
        assert r[j] == rest[j - 1];
        if i > 0 {
          assert r[i] == rest[i - 1];
        }
      }
    }
  }

  /** Inserting below a bound that `x` and every element of `s` respect respects it too. */
  lemma InsertBound(x: Product, s: seq<Product>, bound: real)
    requires x.percentage_off <= bound
    requires forall i :: 0 <= i < |s| ==> s[i].percentage_off <= bound
    ensures forall j :: 0 <= j < |InsertByDiscount(x, s)| ==> InsertByDiscount(x, s)[j].percentage_off <= bound
  {
    InsertPermutes(x, s);
    var r := InsertByDiscount(x, s);
    forall j | 0 <= j < |r| ensures r[j].percentage_off <= bound {
      assert r[j] in multiset(r);
      assert r[j] in multiset(s) || r[j] == x;
    }
  }

  /** Insertion sort, non-increasing by discount, earlier elements first among equals. */
  function SortByDiscount(s: seq<Product>): (r: seq<Product>)
    ensures SortedByDiscount(r)
    ensures multiset(r) == multiset(s)
  {
    if s == [] then []
    else
      var rest := SortByDiscount(s[1..]);
      InsertSorted(s[0], rest);
      InsertPermutes(s[0], rest);
      assert s == [s[0]] + s[1..];
      InsertByDiscount(s[0], rest)
  }

  predicate DiscountEquals(p: Product, k: real) {
    p.percentage_off == k
  }

  /** The products with discount exactly `k`, in order: the discount class `k` of `s`. */
  function WithDiscount(s: seq<Product>, k: real): seq<Product> {
    if s == [] then [] else (if DiscountEquals(s[0], k) then [s[0]] else []) + WithDiscount(s[1..], k)
  }

  /** A discount class holds exactly the products of that discount. */
  lemma {:induction false} WithDiscountMembers(s: seq<Product>, k: real)
    ensures forall y :: y in WithDiscount(s, k) <==> y in s && y.percentage_off == k
  {
    if s != [] {
      WithDiscountMembers(s[1..], k);
      assert s == [s[0]] + s[1..];
    }
  }

  /** Insertion puts `x` ahead of every product of its own discount already in the list. */
  lemma {:induction false} InsertStable(x: Product, s: seq<Product>, k: real)
    ensures WithDiscount(InsertByDiscount(x, s), k)
         == (if DiscountEquals(x, k) then [x] else []) + WithDiscount(s, k)
  {
    var r := InsertByDiscount(x, s);
    if s == [] || s[0].percentage_off <= x.percentage_off {
      assert r[1..] == s;
      ClassUnfold(r, k);
    } else {
      var rest := InsertByDiscount(x, s[1..]);
      InsertStable(x, s[1..], k);
      assert r[1..] == rest;
      ClassUnfold(r, k);
      ClassUnfold(s, k);
    }
  }

  /** The sort is stable: among products of equal discount the input order survives. */
  lemma {:induction false} SortStable(s: seq<Product>, k: real)
    ensures WithDiscount(SortByDiscount(s), k) == WithDiscount(s, k)
  {
    if s != [] {
      SortStable(s[1..], k);
      InsertStable(s[0], SortByDiscount(s[1..]), k);
    }
  }

  /** Sorting an already sorted list changes nothing. */
  lemma {:induction false} SortSorted(s: seq<Product>)
    requires SortedByDiscount(s)
    ensures SortByDiscount(s) == s
  {
    if s != [] {
      SortSorted(s[1..]);
      assert [s[0]] + s[1..] == s;
    }
  }

  /** The discount class of a non-empty list, split at its head. */
  lemma ClassUnfold(a: seq<Product>, k: real)
    requires a != []
    ensures WithDiscount(a, k) == (if DiscountEquals(a[0], k) then [a[0]] else []) + WithDiscount(a[1..], k)
  {
  }

  lemma SortedHeadIsMax(a: seq<Product>)
    requires SortedByDiscount(a) && a != []
    ensures forall y :: y in a ==> y.percentage_off <= a[0].percentage_off
  {
    forall y | y in a ensures y.percentage_off <= a[0].percentage_off {
      var j :| 0 <= j < |a| && a[j] == y;
      if j > 0 {
        assert a[0].percentage_off >= a[j].percentage_off;
      }
    }
  }

  /** Two sorted lists with the same discount classes start with the same product. */
  lemma SortedHeadsAgree(a: seq<Product>, b: seq<Product>)
    requires SortedByDiscount(a) && SortedByDiscount(b) && a != [] && b != []
    requires forall k :: WithDiscount(a, k) == WithDiscount(b, k)
    ensures a[0] == b[0]
  {
    var ka, kb := a[0].percentage_off, b[0].percentage_off;
    WithDiscountMembers(a, ka);
    WithDiscountMembers(b, ka);
    WithDiscountMembers(a, kb);
    WithDiscountMembers(b, kb);
    assert a[0] in WithDiscount(a, ka);
    assert a[0] in WithDiscount(b, ka);
    assert b[0] in WithDiscount(b, kb);
    assert b[0] in WithDiscount(a, kb);
    SortedHeadIsMax(a);
    SortedHeadIsMax(b);
    assert ka == kb;
    ClassUnfold(a, ka);
    ClassUnfold(b, ka);
    assert WithDiscount(a, ka)[0] == a[0];
    assert WithDiscount(b, ka)[0] == b[0];
  }

  lemma SortedTail(a: seq<Product>)
    requires SortedByDiscount(a) && a != []
    ensures SortedByDiscount(a[1..])
  {
    forall i, j | 0 <= i < j < |a[1..]|
      ensures a[1..][i].percentage_off >= a[1..][j].percentage_off
    {
      assert a[1..][i] == a[i + 1] && a[1..][j] == a[j + 1];
    }
  }

  /** Dropping an agreed head keeps the discount classes equal. */
  lemma TailClassesAgree(a: seq<Product>, b: seq<Product>)
    requires a != [] && b != [] && a[0] == b[0]
    requires forall k :: WithDiscount(a, k) == WithDiscount(b, k)
    ensures forall k :: WithDiscount(a[1..], k) == WithDiscount(b[1..], k)
  {
    forall k ensures WithDiscount(a[1..], k) == WithDiscount(b[1..], k) {
      var h := if DiscountEquals(a[0], k) then [a[0]] else [];
      var ta, tb := WithDiscount(a[1..], k), WithDiscount(b[1..], k);
      ClassUnfold(a, k);
      ClassUnfold(b, k);
      assert h + ta == h + tb;
      assert ta == (h + ta)[|h|..];
      assert tb == (h + tb)[|h|..];
    }
  }

  /** Lists with the same discount classes are empty together. */
  lemma ClassesEmptyTogether(a: seq<Product>, b: seq<Product>)
    requires forall k :: WithDiscount(a, k) == WithDiscount(b, k)
    ensures a == [] <==> b == []
  {
    if a != [] {
      WithDiscountMembers(a, a[0].percentage_off);
      WithDiscountMembers(b, a[0].percentage_off);
      assert a[0] in WithDiscount(b, a[0].percentage_off);
    }
    if b != [] {
      WithDiscountMembers(a, b[0].percentage_off);
      WithDiscountMembers(b, b[0].percentage_off);
      assert b[0] in WithDiscount(a, b[0].percentage_off);
    }
  }

  /** Two sorted lists that agree on every discount class are the same list. */
  lemma {:induction false} SortedClassesDetermine(a: seq<Product>, b: seq<Product>)
    requires SortedByDiscount(a) && SortedByDiscount(b)
    requires forall k :: WithDiscount(a, k) == WithDiscount(b, k)
    ensures a == b
  {
    ClassesEmptyTogether(a, b);
    if a != [] {
      SortedHeadsAgree(a, b);
      TailClassesAgree(a, b);
      SortedTail(a);
      SortedTail(b);
      SortedClassesDetermine(a[1..], b[1..]);
      assert a == [a[0]] + a[1..] && b == [b[0]] + b[1..];
    }
  }

  /** Every discount class holds the same products in the same order in both lists. */
  ghost predicate SameClasses(a: seq<Product>, b: seq<Product>) {
    forall k :: WithDiscount(a, k) == WithDiscount(b, k)
  }

  /**
   * Reference characterisation of the sort: a list is the sort of `s` exactly when
   * it is sorted by discount and has the same discount classes, in the same order.
   */
  lemma {:induction false} IsStableSortOf(s: seq<Product>, r: seq<Product>)
    ensures SortedByDiscount(r) && SameClasses(r, s) <==> r == SortByDiscount(s)
  {
    var t := SortByDiscount(s);
    forall k ensures WithDiscount(t, k) == WithDiscount(s, k) {
      SortStable(s, k);
    }
    assert SortedByDiscount(t) && SameClasses(t, s);
    if SortedByDiscount(r) && SameClasses(r, s) {
      SortedClassesDetermine(r, t);
    }
  }

  // ---------------------------------------------------------------------------
  // The whole pass.

  /** The list `applyFiltersAndSort` computes (and then discards). */
  function Pipeline(catalog: seq<Product>, f: FilterState): (r: seq<Product>)
    ensures forall p :: p in r ==> p in catalog && IsActive(p)
    ensures SortedByDiscount(r)
  {
    var active := ActiveOnly(catalog);
    var filtered := ByMaxPrice(ByMinDiscount(BySearch(ByCategory(ByStore(active, f), f), f), f), f);
    assert forall p :: p in filtered ==> p in active;
    var r := SortByDiscount(filtered);
    assert forall p :: p in r ==> p in filtered by {
      forall p | p in r ensures p in filtered {
        assert p in multiset(r);
      }
    }
    r
  }

  /** What a stage keeps, as a predicate that is trivially true when the stage is skipped. */
  predicate StoreStage(p: Product, f: FilterState) { |f.stores| == 0 || InStores(p, f) }
  predicate CategoryStage(p: Product, f: FilterState) { |f.categories| == 0 || Truthy(CategoryCallback(p, f)) }
  predicate SearchStage(p: Product, f: FilterState) { f.searchTerm == "" || NameMatches(p, f) }
  predicate MinDiscountStage(p: Product, f: FilterState) {
    f.minDiscount <= 0.0 || ProductList.MeetsMinDiscount(p, f)
  }
  predicate MaxPriceStage(p: Product, f: FilterState) {
    f.maxPrice >= UnboundedPrice || ProductList.MeetsMaxPrice(p, f)
  }

  /** The stages up to and including each one, in pipeline order. */
  predicate UpToStore(p: Product, f: FilterState) { IsActive(p) && StoreStage(p, f) }
  predicate UpToCategory(p: Product, f: FilterState) { UpToStore(p, f) && CategoryStage(p, f) }
  predicate UpToSearch(p: Product, f: FilterState) { UpToCategory(p, f) && SearchStage(p, f) }
  predicate UpToMinDiscount(p: Product, f: FilterState) { UpToSearch(p, f) && MinDiscountStage(p, f) }

  /** A product survives every stage of the hook. */
  predicate HookKeeps(p: Product, f: FilterState) {
    UpToMinDiscount(p, f) && MaxPriceStage(p, f)
  }

  lemma StoreStageIsFilter(ps: seq<Product>, f: FilterState)
    ensures ByStore(ps, f) == Filter(ps, p => StoreStage(p, f))
  {
    if |f.stores| == 0 { FilterAll(ps, p => StoreStage(p, f)); }
    else { FilterCongruent(ps, p => InStores(p, f), p => StoreStage(p, f)); }
  }

  lemma CategoryStageIsFilter(ps: seq<Product>, f: FilterState)
    ensures ByCategory(ps, f) == Filter(ps, p => CategoryStage(p, f))
  {
    if |f.categories| == 0 { FilterAll(ps, p => CategoryStage(p, f)); }
    else { FilterCongruent(ps, p => Truthy(CategoryCallback(p, f)), p => CategoryStage(p, f)); }
  }

  lemma SearchStageIsFilter(ps: seq<Product>, f: FilterState)
    ensures BySearch(ps, f) == Filter(ps, p => SearchStage(p, f))
  {
    if f.searchTerm == "" { FilterAll(ps, p => SearchStage(p, f)); }
    else { FilterCongruent(ps, p => NameMatches(p, f), p => SearchStage(p, f)); }
  }

  lemma MinDiscountStageIsFilter(ps: seq<Product>, f: FilterState)
    ensures ByMinDiscount(ps, f) == Filter(ps, p => MinDiscountStage(p, f))
  {
    if f.minDiscount <= 0.0 { FilterAll(ps, p => MinDiscountStage(p, f)); }
    else { FilterCongruent(ps, p => ProductList.MeetsMinDiscount(p, f), p => MinDiscountStage(p, f)); }
  }

  lemma MaxPriceStageIsFilter(ps: seq<Product>, f: FilterState)
    ensures ByMaxPrice(ps, f) == Filter(ps, p => MaxPriceStage(p, f))
  {
    if f.maxPrice >= UnboundedPrice { FilterAll(ps, p => MaxPriceStage(p, f)); }
    else { FilterCongruent(ps, p => ProductList.MeetsMaxPrice(p, f), p => MaxPriceStage(p, f)); }
  }

  /** The filtering stages together are one filter by `HookKeeps`. */
  lemma StagesAreOneFilter(catalog: seq<Product>, f: FilterState)
    ensures ByMaxPrice(ByMinDiscount(BySearch(ByCategory(ByStore(ActiveOnly(catalog), f), f), f), f), f)
         == Filter(catalog, p => HookKeeps(p, f))
  {
    var s1 := ByStore(ActiveOnly(catalog), f);
    StoreStageIsFilter(ActiveOnly(catalog), f);
    FilterThen(catalog, IsActive, p => StoreStage(p, f), p => UpToStore(p, f));
    var s2 := ByCategory(s1, f);
    CategoryStageIsFilter(s1, f);
    FilterThen(catalog, p => UpToStore(p, f), p => CategoryStage(p, f), p => UpToCategory(p, f));
    var s3 := BySearch(s2, f);
    SearchStageIsFilter(s2, f);
    FilterThen(catalog, p => UpToCategory(p, f), p => SearchStage(p, f), p => UpToSearch(p, f));
    var s4 := ByMinDiscount(s3, f);
    MinDiscountStageIsFilter(s3, f);
    FilterThen(catalog, p => UpToSearch(p, f), p => MinDiscountStage(p, f), p => UpToMinDiscount(p, f));
    MaxPriceStageIsFilter(s4, f);
    FilterThen(catalog, p => UpToMinDiscount(p, f), p => MaxPriceStage(p, f), p => HookKeeps(p, f));
  }

  /**
   * Reference definition of the pass: one filter by the conjunction of all stages,
   * then the stable sort.
   */
  lemma PipelineIsSortedFilter(catalog: seq<Product>, f: FilterState)
    ensures Pipeline(catalog, f) == SortByDiscount(Filter(catalog, p => HookKeeps(p, f)))
  {
    StagesAreOneFilter(catalog, f);
  }

  /** With no store selected the store stage is skipped; otherwise it keeps exactly the selected stores. */
  lemma StoreStageKeeps(ps: seq<Product>, f: FilterState)
    ensures |f.stores| == 0 ==> ByStore(ps, f) == ps
    ensures |f.stores| > 0 ==> forall p :: p in ByStore(ps, f) <==> p in ps && StoreName(p.store_name) in f.stores
  {
  }

  /**
   * As written, any category selection empties the pass, even when active products
   * carry a selected category.
   */
  lemma CategorySelectionEmptiesPipeline(catalog: seq<Product>, f: FilterState)
    requires |f.categories| > 0
    ensures ByCategory(catalog, f) == []
    ensures Pipeline(catalog, f) == []
  {
    FilterNone(catalog, p => Truthy(CategoryCallback(p, f)));
    FilterNone(ByStore(ActiveOnly(catalog), f), p => Truthy(CategoryCallback(p, f)));
  }

  /** The discount and price stages are skipped at their sentinels 0 and 1000. */
  lemma SentinelsSkipStages(ps: seq<Product>, f: FilterState)
    ensures f.minDiscount <= 0.0 ==> ByMinDiscount(ps, f) == ps
    ensures f.minDiscount > 0.0 ==> forall p :: p in ByMinDiscount(ps, f) <==> p in ps && p.percentage_off >= f.minDiscount
    ensures f.maxPrice >= UnboundedPrice ==> ByMaxPrice(ps, f) == ps
    ensures f.maxPrice < UnboundedPrice ==> forall p :: p in ByMaxPrice(ps, f) <==> p in ps && p.discounted_price <= f.maxPrice
  {
  }

  // ---------------------------------------------------------------------------
  // Category extraction.

  /** `activeProducts.map(item => item.category).filter(Boolean)`. */
  function ActiveCategories(ps: seq<Product>): (r: seq<string>)
    ensures forall c :: c in r ==> exists i :: 0 <= i < |ps| && IsActive(ps[i]) && HasCategory(ps[i]) && ps[i].category.value == c
    ensures forall i :: 0 <= i < |ps| && IsActive(ps[i]) && HasCategory(ps[i]) ==> ps[i].category.value in r
    decreases |ps|
  {
    if ps == [] then []
    else
      var init := ps[..|ps| - 1];
      var last := ps[|ps| - 1];
      assert forall i :: 0 <= i < |init| ==> init[i] == ps[i];
      ActiveCategories(init) + (if IsActive(last) && HasCategory(last) then [last.category.value] else [])
  }

  /** One product contributes its category exactly when it is active and has a truthy category. */
  lemma ActiveCategoriesOne(p: Product)
    ensures ActiveCategories([p]) == if IsActive(p) && HasCategory(p) then [p.category.value] else []
  {
    assert [p][..0] == [];
  }

  /** `map` then `filter` keeps catalog order and every copy: the categories of two lists are concatenated. */
  lemma {:induction false} ActiveCategoriesAppend(a: seq<Product>, b: seq<Product>)
    ensures ActiveCategories(a + b) == ActiveCategories(a) + ActiveCategories(b)
    decreases |b|
  {
    if b == [] {
      assert a + b == a;
    } else {
      var init, last := b[..|b| - 1], b[|b| - 1];
      assert (a + b)[..|a + b| - 1] == a + init;
      assert (a + b)[|a + b| - 1] == last;
      ActiveCategoriesAppend(a, init);
    }
  }

  /** `extractCategories`: the distinct truthy categories of active products, in first-occurrence order. */
  method ExtractCategories(catalog: seq<Product>) returns (categories: seq<string>)
    ensures categories == Unique(ActiveCategories(catalog))
    ensures NoDup(categories)
    ensures forall c :: c in categories <==> exists p :: p in catalog && IsActive(p) && p.category == Some(c) && c != ""
  {
    categories := [];
    var i := 0;
    while i < |catalog|
      invariant 0 <= i <= |catalog|
      invariant categories == Unique(ActiveCategories(catalog[..i]))
    {
      var p := catalog[i];
      assert catalog[..i + 1][..i] == catalog[..i];
      ghost var before := ActiveCategories(catalog[..i]);
      if IsActive(p) && HasCategory(p) {
        assert ActiveCategories(catalog[..i + 1]) == before + [p.category.value];
        assert (before + [p.category.value])[..|before|] == before;
        if p.category.value !in categories {
          categories := categories + [p.category.value];
        }
      } else {
        assert ActiveCategories(catalog[..i + 1]) == before + [];
        assert before + [] == before;
      }
      i := i + 1;
    }
    assert catalog[..i] == catalog;
  }

  // ---------------------------------------------------------------------------
  // What the hook publishes.

  /** The values the hook hands to the page. */
  datatype HookState = HookState(products: seq<Product>, categories: seq<string>)

  /**
   * One run of `extractCategories` then `applyFiltersAndSort`: the sorted list is
   * computed but `setProducts(allProducts)` publishes the whole catalog.
   */
  function Refresh(catalog: seq<Product>, f: FilterState): (r: HookState)
    ensures r.products == catalog
    ensures NoDup(r.categories)
    ensures forall c :: c in r.categories <==> exists p :: p in catalog && IsActive(p) && p.category == Some(c) && c != ""
    ensures r.categories == Unique(ActiveCategories(catalog))
  {
    HookState(catalog, Unique(ActiveCategories(catalog)))
  }

  /** The published list ignores the filters, and keeps every inactive row the pass would drop. */
  lemma PublishedIgnoresFilters(catalog: seq<Product>, f: FilterState, g: FilterState, p: Product)
    requires p in catalog && !IsActive(p)
    ensures Refresh(catalog, f).products == Refresh(catalog, g).products
    ensures p in Refresh(catalog, f).products && p !in Pipeline(catalog, f)
  {
  }

  // ---------------------------------------------------------------------------
  // The evidently intended pass, kept apart from the code as written.

  /** The category callback with its missing `return` restored. */
  predicate IntendedCategoryKeep(p: Product, f: FilterState) {
    HasCategory(p) && p.category.value in f.categories
  }

  function IntendedByCategory(ps: seq<Product>, f: FilterState): seq<Product> {
    if |f.categories| > 0 then Filter(ps, p => IntendedCategoryKeep(p, f)) else ps
  }

  /** The pass with the corrected category stage; its result is what the hook would publish. */
  function IntendedPipeline(catalog: seq<Product>, f: FilterState): seq<Product> {
    SortByDiscount(ByMaxPrice(ByMinDiscount(BySearch(IntendedByCategory(ByStore(ActiveOnly(catalog), f), f), f), f), f))
  }

  /** The corrected pass keeps exactly the active products that pass every selected filter, sorted. */
  lemma IntendedPipelineKeeps(catalog: seq<Product>, f: FilterState)
    ensures SortedByDiscount(IntendedPipeline(catalog, f))
    ensures forall p :: p in IntendedPipeline(catalog, f) <==>
      && p in catalog && IsActive(p) && StoreStage(p, f)
      && (|f.categories| == 0 || IntendedCategoryKeep(p, f))
      && SearchStage(p, f) && MinDiscountStage(p, f) && MaxPriceStage(p, f)
  {
    var s0 := ActiveOnly(catalog);
    var s1 := ByStore(s0, f);
    var s2 := IntendedByCategory(s1, f);
    var s3 := BySearch(s2, f);
    var s4 := ByMinDiscount(s3, f);
    var s5 := ByMaxPrice(s4, f);
    StoreStageIsFilter(s0, f);
    SearchStageIsFilter(s2, f);
    MinDiscountStageIsFilter(s3, f);
    MaxPriceStageIsFilter(s4, f);
    forall p ensures p in SortByDiscount(s5) <==> p in s5 {
      assert p in SortByDiscount(s5) <==> p in multiset(s5);
    }
  }

  /** A selected category now keeps its active products (compare `CategorySelectionEmptiesPipeline`). */
  lemma IntendedCategoryKeepsMatches(catalog: seq<Product>, p: Product)
    requires p in catalog && IsActive(p) && HasCategory(p)
    ensures p in IntendedPipeline(catalog, FilterState([], [p.category.value], "", 0.0, UnboundedPrice))
    ensures Pipeline(catalog, FilterState([], [p.category.value], "", 0.0, UnboundedPrice)) == []
  {
    var f := FilterState([], [p.category.value], "", 0.0, UnboundedPrice);
    IntendedPipelineKeeps(catalog, f);
    CategorySelectionEmptiesPipeline(catalog, f);
  }

  /** The hook with both defects corrected: it publishes the corrected pass instead of the catalog. */
  function IntendedRefresh(catalog: seq<Product>, f: FilterState): (r: HookState)
    ensures forall p :: p in r.products ==> p in catalog && IsActive(p)
    ensures SortedByDiscount(r.products)
    ensures r.categories == Refresh(catalog, f).categories
  {
    IntendedPipelineKeeps(catalog, f);
    HookState(IntendedPipeline(catalog, f), Unique(ActiveCategories(catalog)))
  }

  /** A product with a category that the page's filter shows passes every corrected hook stage. */
  lemma ShownPassesStages(p: Product, f: FilterState)
    requires HasCategory(p) && ProductList.Shown(p, f)
    ensures StoreStage(p, f) && (|f.categories| == 0 || IntendedCategoryKeep(p, f))
    ensures SearchStage(p, f) && MinDiscountStage(p, f) && MaxPriceStage(p, f)
  {
  }

  /** Everything the corrected hook publishes has a category when the catalog's rows all do. */
  lemma PublishedHaveCategories(catalog: seq<Product>, f: FilterState)
    requires forall i :: 0 <= i < |catalog| && IsActive(catalog[i]) ==> HasCategory(catalog[i])
    ensures forall i :: 0 <= i < |IntendedRefresh(catalog, f).products| ==>
      HasCategory(IntendedRefresh(catalog, f).products[i])
  {
    var published := IntendedRefresh(catalog, f).products;
    forall i | 0 <= i < |published| ensures HasCategory(published[i]) {
      assert published[i] in published;
      var j :| 0 <= j < |catalog| && catalog[j] == published[i];
    }
  }

  /**
   * With the corrected hook, the page lists exactly the active catalog products that
   * pass its own filter: the two filters agree wherever the hook's stage runs, and
   * the page's filter is the stricter one where the hook skips a stage.
   */
  lemma IntendedPageShows(catalog: seq<Product>, f: FilterState)
    requires forall i :: 0 <= i < |catalog| && IsActive(catalog[i]) ==> HasCategory(catalog[i])
    ensures ProductList.Visible(IntendedRefresh(catalog, f).products, f).Success?
    ensures forall p :: p in ProductList.Visible(IntendedRefresh(catalog, f).products, f).value
                    <==> p in catalog && IsActive(p) && ProductList.Shown(p, f)
  {
    var published := IntendedRefresh(catalog, f).products;
    PublishedHaveCategories(catalog, f);
    var v := ProductList.Visible(published, f);
    assert v.Success?;
    forall p | p in v.value ensures p in catalog && IsActive(p) && ProductList.Shown(p, f) {
      assert p in published;
    }
    forall p | p in catalog && IsActive(p) && ProductList.Shown(p, f) ensures p in v.value {
      var j :| 0 <= j < |catalog| && catalog[j] == p;
      assert HasCategory(p);
      IntendedPublishes(catalog, f, p);
      assert p in published;
    }
  }

  lemma IntendedPublishes(catalog: seq<Product>, f: FilterState, p: Product)
    requires p in catalog && IsActive(p) && HasCategory(p) && ProductList.Shown(p, f)
    ensures p in IntendedRefresh(catalog, f).products
  {
    ShownPassesStages(p, f);
    IntendedPipelineKeeps(catalog, f);
  }

  /**
   * An inactive row without a category: as written, the whole catalog is published
   * and the page's filter throws on that row; with the corrected hook the row is
   * never published and the page shows its products.
   */
  lemma UncategorisedInactiveRow(catalog: seq<Product>, f: FilterState, i: nat)
    requires i < |catalog| && !IsActive(catalog[i]) && !HasCategory(catalog[i])
    requires forall j :: 0 <= j < |catalog| && IsActive(catalog[j]) ==> HasCategory(catalog[j])
    ensures ProductList.Visible(Refresh(catalog, f).products, f).Failure?
    ensures ProductList.Visible(IntendedRefresh(catalog, f).products, f).Success?
  {
    IntendedPageShows(catalog, f);
  }
}

=== FILE: filter_bar.dfy ===
/** The filter bar's edits to the page's filter state, and its active-filter counter. */
module FilterBar {
  import opened Wrappers
  import opened Seqs
  import opened Types

  /** A `Partial<FilterState>`: the fields an edit supplies. */
  datatype FilterPatch = FilterPatch(
    stores: Option<seq<string>>,
    categories: Option<seq<string>>,
    searchTerm: Option<string>,
    minDiscount: Option<real>,
    maxPrice: Option<real>)

  const EmptyPatch := FilterPatch(None, None, None, None, None)

  /** `updateFilters`: `{ ...filters, ...updates }`. */
  function UpdateFilters(f: FilterState, u: FilterPatch): (r: FilterState)
    ensures u.stores.Some? ==> r.stores == u.stores.value
    ensures u.stores.None? ==> r.stores == f.stores
    ensures u.categories.Some? ==> r.categories == u.categories.value
    ensures u.categories.None? ==> r.categories == f.categories
    ensures u.searchTerm.Some? ==> r.searchTerm == u.searchTerm.value
    ensures u.searchTerm.None? ==> r.searchTerm == f.searchTerm
    ensures u.minDiscount.Some? ==> r.minDiscount == u.minDiscount.value
    ensures u.minDiscount.None? ==> r.minDiscount == f.minDiscount
    ensures u.maxPrice.Some? ==> r.maxPrice == u.maxPrice.value
    ensures u.maxPrice.None? ==> r.maxPrice == f.maxPrice
  {
    FilterState(u.stores.GetOr(f.stores), u.categories.GetOr(f.categories),
                u.searchTerm.GetOr(f.searchTerm), u.minDiscount.GetOr(f.minDiscount),
                u.maxPrice.GetOr(f.maxPrice))
  }

  /** Two successive patches, the later one winning where both supply a field. */
  function ThenPatch(u: FilterPatch, v: FilterPatch): FilterPatch {
    FilterPatch(v.stores.Or(u.stores), v.categories.Or(u.categories),
                v.searchTerm.Or(u.searchTerm), v.minDiscount.Or(u.minDiscount),
                v.maxPrice.Or(u.maxPrice))
  }

  /** An edit that supplies nothing leaves the filters as they are. */
  lemma UpdateEmpty(f: FilterState)
    ensures UpdateFilters(f, EmptyPatch) == f
  {
  }

  /** Two edits in a row are one edit with the later values winning. */
  lemma UpdateTwice(f: FilterState, u: FilterPatch, v: FilterPatch)
    ensures UpdateFilters(UpdateFilters(f, u), v) == UpdateFilters(f, ThenPatch(u, v))
  {
  }

  /** Flips membership of `x`: every occurrence removed if present, appended if absent. */
  function Toggle(list: seq<string>, x: string): (r: seq<string>)
    ensures x in r <==> x !in list
    ensures forall y :: y != x ==> (y in r <==> y in list)
    ensures x !in list ==> r == list + [x]
    ensures x in list ==> Subseq(r, list) && |r| < |list|
  {
    if x in list then
      var r := Filter(list, y => y != x);
      RemoveShrinks(list, x);
      r
    else list + [x]
  }

  lemma {:induction false} RemoveShrinks(list: seq<string>, x: string)
    requires x in list
    ensures |Filter(list, y => y != x)| < |list|
  {
    if list[0] != x {
      RemoveShrinks(list[1..], x);
    }
  }

  /** Toggling an absent value twice gives the original list back. */
  lemma ToggleTwiceAbsent(list: seq<string>, x: string)
    requires x !in list
    ensures Toggle(Toggle(list, x), x) == list
  {
    assert x in list + [x];
    FilterAppend(list, [x], y => y != x);
    FilterAll(list, y => y != x);
  }

  /** Removing a value that occurs once in a duplicate-free list shortens it by one. */
  lemma {:induction false} RemoveOnce(list: seq<string>, x: string)
    requires NoDup(list) && x in list
    ensures |Filter(list, y => y != x)| == |list| - 1
  {
    assert NoDup(list[1..]) by {
      forall i, j | 0 <= i < j < |list[1..]| ensures list[1..][i] != list[1..][j] {
        assert list[i + 1] != list[j + 1];
      }
    }
    if list[0] == x {
      assert x !in list[1..];
      FilterAll(list[1..], y => y != x);
    } else {
      RemoveOnce(list[1..], x);
    }
  }

  /** On a duplicate-free list toggling keeps it duplicate-free and changes its length by one. */
  lemma ToggleDuplicateFree(list: seq<string>, x: string)
    requires NoDup(list)
    ensures NoDup(Toggle(list, x))
    ensures |Toggle(list, x)| == if x in list then |list| - 1 else |list| + 1
  {
    if x in list {
      FilterNoDup(list, y => y != x);
      RemoveOnce(list, x);
    }
  }

  /** `toggleStore`: flips one store, nothing else changes. */
  function ToggleStore(f: FilterState, store: string): (r: FilterState)
    ensures r == f.(stores := Toggle(f.stores, store))
  {
    UpdateFilters(f, EmptyPatch.(stores := Some(Toggle(f.stores, store))))
  }

  /** `toggleCategory`: flips one category, nothing else changes. */
  function ToggleCategory(f: FilterState, category: string): (r: FilterState)
    ensures r == f.(categories := Toggle(f.categories, category))
  {
    UpdateFilters(f, EmptyPatch.(categories := Some(Toggle(f.categories, category))))
  }

  /**
   * `clearFilters`: the current filters are dropped whatever they were, the
   * page is back at its initial filters, and the counter reads 0.
   */
  function ClearFilters(f: FilterState): (r: FilterState)
    ensures r == InitialFilters
    ensures ActiveCount(r) == 0
  {
    FilterState([], [], "", 0.0, 1000.0)
  }

  /**
   * `activeFiltersCount`: one per selected store and category, and one for each
   * of the search term, the minimum discount and the price ceiling that is set.
   */
  function ActiveCount(f: FilterState): (n: nat)
    ensures |f.stores| + |f.categories| <= n <= |f.stores| + |f.categories| + 3
    ensures n == |f.stores| + |f.categories| <==>
      f.searchTerm == "" && f.minDiscount <= 0.0 && f.maxPrice >= UnboundedPrice
  {
    |f.stores| + |f.categories|
    + (if f.searchTerm != "" then 1 else 0)
    + (if f.minDiscount > 0.0 then 1 else 0)
    + (if f.maxPrice < UnboundedPrice then 1 else 0)
  }

  /** The counter is zero exactly when no filter differs from its "no restriction" value. */
  lemma ActiveCountZero(f: FilterState)
    ensures ActiveCount(f) == 0 <==>
      f.stores == [] && f.categories == [] && f.searchTerm == ""
      && f.minDiscount <= 0.0 && f.maxPrice >= UnboundedPrice
  {
  }

  /** Toggling a store in a duplicate-free selection moves the counter by exactly one. */
  lemma ToggleStoreCount(f: FilterState, store: string)
    requires NoDup(f.stores)
    ensures ActiveCount(ToggleStore(f, store))
         == if store in f.stores then ActiveCount(f) - 1 else ActiveCount(f) + 1
  {
    ToggleDuplicateFree(f.stores, store);
  }

  /** Toggling a category in a duplicate-free selection moves the counter by exactly one. */
  lemma ToggleCategoryCount(f: FilterState, category: string)
    requires NoDup(f.categories)
    ensures ActiveCount(ToggleCategory(f, category))
         == if category in f.categories then ActiveCount(f) - 1 else ActiveCount(f) + 1
  {
    ToggleDuplicateFree(f.categories, category);
  }

  /** Typing a search term: the counter loses the old term's one if it was set and gains one if the new term is. */
  lemma SearchEditCount(f: FilterState, t: string)
    ensures ActiveCount(UpdateFilters(f, EmptyPatch.(searchTerm := Some(t))))
         == ActiveCount(f) - (if f.searchTerm != "" then 1 else 0) + (if t != "" then 1 else 0)
  {
  }

  /** Editing the minimum discount: only a positive value counts. */
  lemma MinDiscountEditCount(f: FilterState, d: real)
    ensures ActiveCount(UpdateFilters(f, EmptyPatch.(minDiscount := Some(d))))
         == ActiveCount(f) - (if f.minDiscount > 0.0 then 1 else 0) + (if d > 0.0 then 1 else 0)
  {
  }

  /** Editing the price ceiling: only a value below the 1000 sentinel counts. */
  lemma MaxPriceEditCount(f: FilterState, m: real)
    ensures ActiveCount(UpdateFilters(f, EmptyPatch.(maxPrice := Some(m))))
         == ActiveCount(f) - (if f.maxPrice < UnboundedPrice then 1 else 0) + (if m < UnboundedPrice then 1 else 0)
  {
  }
}

=== FILE: generation.dfy ===
/**
 * One press of "Generate Recipe": the ingredient-count check, the streamed reply,
 * the repair and final parse, and the assembly of one recipe per parsed element.
 */
module Generation {
  import opened Wrappers
  import opened Types
  import opened Selection
  import opened Stream
  import opened Salvage

  /** `{ ...base, ...over }`: every property `over` carries wins. */
  function Spread(base: RecipeFields, over: RecipeFields): RecipeFields {
    RecipeFields(
      over.id.Or(base.id), over.title.Or(base.title), over.description.Or(base.description),
      over.ingredients.Or(base.ingredients), over.cooking_steps.Or(base.cooking_steps),
      over.calories.Or(base.calories), over.prep_time_minutes.Or(base.prep_time_minutes),
      over.cook_time_minutes.Or(base.cook_time_minutes), over.servings.Or(base.servings),
      over.difficulty_level.Or(base.difficulty_level), over.cuisine_type.Or(base.cuisine_type),
      over.generated_from_discounts.Or(base.generated_from_discounts),
      over.discount_products_used.Or(base.discount_products_used),
      over.created_at.Or(base.created_at), over.updated_at.Or(base.updated_at))
  }

  /** Spreading nothing over an object, or an object over nothing, gives that object. */
  lemma SpreadIdentity(f: RecipeFields)
    ensures Spread(f, NoFields) == f
    ensures Spread(NoFields, f) == f
  {
  }

  /** Spreads can be grouped either way. */
  lemma SpreadAssociative(a: RecipeFields, b: RecipeFields, c: RecipeFields)
    ensures Spread(Spread(a, b), c) == Spread(a, Spread(b, c))
  {
  }

  /** The properties the page fills in before spreading a parsed element. */
  function Defaults(id: string, now: string, names: seq<string>): RecipeFields {
    NoFields.(id := Some(id), created_at := Some(now), updated_at := Some(now),
              generated_from_discounts := Some(true), discount_products_used := Some(names))
  }

  /**
   * The record built from one parsed element: the five defaults where the element
   * lacks the property, the element's own value where it has it, nothing else added.
   */
  function BuildRecipe(element: RecipeFields, id: string, now: string, names: seq<string>): (r: RecipeFields)
    ensures r.id == Some(element.id.GetOr(id))
    ensures r.created_at == Some(element.created_at.GetOr(now))
    ensures r.updated_at == Some(element.updated_at.GetOr(now))
    ensures r.generated_from_discounts == Some(element.generated_from_discounts.GetOr(true))
    ensures r.discount_products_used == Some(element.discount_products_used.GetOr(names))
    ensures r.title == element.title && r.description == element.description
    ensures r.ingredients == element.ingredients && r.cooking_steps == element.cooking_steps
    ensures r.calories == element.calories && r.servings == element.servings
    ensures r.prep_time_minutes == element.prep_time_minutes && r.cook_time_minutes == element.cook_time_minutes
    ensures r.difficulty_level == element.difficulty_level && r.cuisine_type == element.cuisine_type
  {
    Spread(Defaults(id, now, names), element)
  }

  /** One record per parsed element, in order; `freshId(k)` is the identifier drawn for the k-th. */
  function BuildRecipes(elements: seq<RecipeFields>, names: seq<string>, freshId: nat -> string, now: string): (rs: seq<RecipeFields>)
    ensures |rs| == |elements|
    ensures forall k :: 0 <= k < |elements| ==> rs[k] == BuildRecipe(elements[k], freshId(k), now, names)
  {
    seq(|elements|, k requires 0 <= k < |elements| => BuildRecipe(elements[k], freshId(k), now, names))
  }

  /** An element carrying title, ingredients, steps and servings becomes a complete `Recipe`. */
  lemma BuiltRecipeComplete(element: RecipeFields, id: string, now: string, names: seq<string>)
    requires element.title.Some? && element.ingredients.Some?
    requires element.cooking_steps.Some? && element.servings.Some?
    ensures AsRecipe(BuildRecipe(element, id, now, names)).Some?
    ensures element.generated_from_discounts.None? ==>
      AsRecipe(BuildRecipe(element, id, now, names)).value.generated_from_discounts
  {
  }

  /** An element that already is a complete recipe comes out of the assembly as that very recipe. */
  lemma BuildKeepsCompleteRecipe(r: Recipe, id: string, now: string, names: seq<string>)
    ensures BuildRecipe(FieldsOf(r), id, now, names) == FieldsOf(r)
    ensures AsRecipe(BuildRecipe(FieldsOf(r), id, now, names)) == Some(r)
  {
    AsRecipeFieldsOf(r);
  }

  /** Distinct drawn identifiers give distinct recipe ids when no element brings its own id. */
  lemma BuiltIdsDistinct(elements: seq<RecipeFields>, names: seq<string>, freshId: nat -> string, now: string)
    requires forall i: nat, j: nat :: i != j ==> freshId(i) != freshId(j)
    requires forall k :: 0 <= k < |elements| ==> elements[k].id.None?
    ensures forall i, j :: 0 <= i < j < |elements| ==>
      BuildRecipes(elements, names, freshId, now)[i].id != BuildRecipes(elements, names, freshId, now)[j].id
  {
  }

  /** What the final `JSON.parse` and the `forEach` over its value make of the repaired text. */
  datatype Parsed =
    | NotJson                       // `JSON.parse` throws
    | NotArray(typeError: string)   // it parses, but `forEach` throws this message
    | Elements(elements: seq<RecipeFields>)

  datatype Outcome = TooFewIngredients | Failed(message: string) | Generated

  /** The page state a generation run touches. */
  datatype Page = Page(selected: seq<Product>, recipes: seq<RecipeFields>)

  /** A run: the page afterwards, what the user is told, and the ingredient names sent, if a request was made. */
  datatype Run = Run(page: Page, outcome: Outcome, request: Option<seq<string>>)

  const InvalidJson: string := "Invalid JSON response: "

  /**
   * `generateRecipes`. `reply` is the streamed body as decoded chunks, or the message
   * of the error the request or the stream raised; `decode` and `parse` stand for the
   * two `JSON.parse` calls; `freshId` and `now` for `crypto.randomUUID` and the clock.
   */
  function GenerateRecipes(page: Page, reply: Result<seq<string>, string>,
                           decode: string -> Option<Envelope>, parse: string -> Parsed,
                           freshId: nat -> string, now: string): (run: Run)
    ensures run.request.None? <==> |page.selected| < MinIngredients
    ensures run.request.None? ==> run.page == page && run.outcome == TooFewIngredients
    ensures run.request.Some? ==> run.request.value == IngredientNames(page.selected)
    ensures run.outcome.Failed? ==> run.page == Page(page.selected, [])
    ensures run.outcome.Generated? ==> run.page.selected == []
    ensures run.request.Some? && reply.Failure? ==> run.outcome == Failed(reply.error)
    ensures run.request.Some? && reply.Success? ==>
      var cleaned := Repair(Assembled(reply.value, decode));
      match parse(cleaned)
      case NotJson => run.outcome == Failed(InvalidJson + cleaned)
      case NotArray(e) => run.outcome == Failed(e)
      case Elements(es) =>
        run.outcome == Generated
        && run.page.recipes == BuildRecipes(es, IngredientNames(page.selected), freshId, now)
  {
    if |page.selected| < MinIngredients then Run(page, TooFewIngredients, None)
    else
      var names := IngredientNames(page.selected);
      var cleared := page.(recipes := []);
      match reply
      case Failure(message) => Run(cleared, Failed(message), Some(names))
      case Success(chunks) =>
        var cleaned := Repair(Assembled(chunks, decode));
        match parse(cleaned)
        case NotJson => Run(cleared, Failed(InvalidJson + cleaned), Some(names))
        case NotArray(e) => Run(cleared, Failed(e), Some(names))
        case Elements(es) => Run(Page([], BuildRecipes(es, names, freshId, now)), Generated, Some(names))
  }

  /** A failed run leaves enough ingredients selected to try again, and trying again sends a request. */
  lemma FailedRunCanRetry(page: Page, reply: Result<seq<string>, string>,
                          decode: string -> Option<Envelope>, parse: string -> Parsed,
                          freshId: nat -> string, now: string,
                          reply2: Result<seq<string>, string>)
    requires GenerateRecipes(page, reply, decode, parse, freshId, now).outcome.Failed?
    ensures GenerateRecipes(GenerateRecipes(page, reply, decode, parse, freshId, now).page,
                            reply2, decode, parse, freshId, now).request.Some?
  {
  }

  /** After a successful run the selection is empty, so pressing again sends nothing and changes nothing. */
  lemma SuccessfulRunConsumesSelection(page: Page, reply: Result<seq<string>, string>,
                                       decode: string -> Option<Envelope>, parse: string -> Parsed,
                                       freshId: nat -> string, now: string,
                                       reply2: Result<seq<string>, string>)
    requires GenerateRecipes(page, reply, decode, parse, freshId, now).outcome.Generated?
    ensures var after := GenerateRecipes(page, reply, decode, parse, freshId, now).page;
      GenerateRecipes(after, reply2, decode, parse, freshId, now) == Run(after, TooFewIngredients, None)
  {
  }
}

=== FILE: product_list.dfy ===
/** The product list the main page shows: its own filter over the products the hook publishes. */
module ProductList {
  import opened Wrappers
  import opened Seqs
  import opened Text
  import opened Types

  /** The message thrown when a product has no category. */
  const CategoryMissing: string := "Product category not found."

  predicate MatchesSearch(p: Product, f: FilterState) {
    f.searchTerm == "" || ContainsIgnoringCase(p.product_name, f.searchTerm)
  }

  predicate MatchesStore(p: Product, f: FilterState) {
    |f.stores| == 0 || StoreName(p.store_name) in f.stores
  }

  predicate MatchesCategory(p: Product, f: FilterState) {
    |f.categories| == 0 || (p.category.Some? && p.category.value in f.categories)
  }

  predicate MeetsMinDiscount(p: Product, f: FilterState) {
    p.percentage_off >= f.minDiscount
  }

  predicate MeetsMaxPrice(p: Product, f: FilterState) {
    p.discounted_price <= f.maxPrice
  }

  /** The conjunction the page's filter callback returns for a product with a category. */
  predicate Shown(p: Product, f: FilterState) {
    && MatchesSearch(p, f)
    && MatchesStore(p, f)
    && MatchesCategory(p, f)
    && MeetsMinDiscount(p, f)
    && MeetsMaxPrice(p, f)
  }

  /**
   * `products.filter(...)` with the page's callback. The callback throws as soon
   * as it meets a product whose category is missing or empty, so the whole
   * filter fails then.
   */
  function Visible(products: seq<Product>, f: FilterState): (r: Result<seq<Product>, string>)
    ensures r.Failure? <==> exists i :: 0 <= i < |products| && !HasCategory(products[i])
    ensures r.Failure? ==> r.error == CategoryMissing
    ensures r.Success? ==> Subseq(r.value, products)
    ensures r.Success? ==> forall p :: p in r.value ==> p in products && Shown(p, f)
    ensures r.Success? ==> forall p :: p in products && Shown(p, f) ==> p in r.value
    ensures r.Success? ==> forall p :: Shown(p, f) ==> multiset(r.value)[p] == multiset(products)[p]
  {
    if products == [] then Success([])
    else
      var p := products[0];
      assert products == [p] + products[1..];
      assert multiset(products) == multiset{p} + multiset(products[1..]);
      if !HasCategory(p) then Failure(CategoryMissing)
      else
        match Visible(products[1..], f)
        case Failure(e) => Failure(e)
        case Success(rest) => Success(if Shown(p, f) then [p] + rest else rest)
  }

  /** When it succeeds, the page's filter is the plain order-preserving filter by `Shown`. */
  lemma {:induction false} VisibleIsFilter(products: seq<Product>, f: FilterState)
    requires forall i :: 0 <= i < |products| ==> HasCategory(products[i])
    ensures Visible(products, f) == Success(Filter(products, p => Shown(p, f)))
  {
    if products != [] {
      VisibleIsFilter(products[1..], f);
    }
  }

  /** Non-negative discount and a price no higher than the sentinel ceiling. */
  predicate WithinInitialBounds(p: Product) {
    p.percentage_off >= 0.0 && p.discounted_price <= UnboundedPrice
  }

  /**
   * Under the initial filters a product with a category is shown exactly when its
   * discount is non-negative and its price is at most the sentinel ceiling.
   */
  lemma InitialFiltersShow(products: seq<Product>)
    requires forall i :: 0 <= i < |products| ==> HasCategory(products[i])
    ensures Visible(products, InitialFilters)
         == Success(Filter(products, WithinInitialBounds))
  {
    VisibleIsFilter(products, InitialFilters);
    FilterCongruent(products, p => Shown(p, InitialFilters),
                    WithinInitialBounds);
  }

  /** The search is case-insensitive: lower-casing the search term changes nothing. */
  lemma SearchIgnoresCase(p: Product, f: FilterState)
    ensures MatchesSearch(p, f) == MatchesSearch(p, f.(searchTerm := Lower(f.searchTerm)))
  {
    LowerIdempotent(f.searchTerm);
  }
}

=== FILE: recipe_card.dfy ===
/**
 * The values `RecipeCard` and `RecipeCard_sm` derive from a recipe and the
 * card's "show full recipe" flag: total time, the discounted-ingredient count,
 * the collapsed ingredient preview with its "+N more" line, and the numbered steps.
 */
module RecipeCard {
  import opened Wrappers
  import opened Types
  import opened Seqs

  /** Ingredients a collapsed card lists. */
  const PreviewSize: nat := 3

  function Min(a: int, b: int): int { if a <= b then a else b }

  /** `(prep_time_minutes || 0) + (cook_time_minutes || 0)`. */
  function TotalTime(r: Recipe): (t: int)
    ensures r.prep_time_minutes.None? && r.cook_time_minutes.None? ==> t == 0
    ensures r.prep_time_minutes.Some? && r.cook_time_minutes.None? ==> t == r.prep_time_minutes.value
    ensures r.prep_time_minutes.None? && r.cook_time_minutes.Some? ==> t == r.cook_time_minutes.value
    ensures r.prep_time_minutes.Some? && r.cook_time_minutes.Some? ==>
      t == r.prep_time_minutes.value + r.cook_time_minutes.value
  {
    r.prep_time_minutes.GetOr(0) + r.cook_time_minutes.GetOr(0)
  }

  /** An ingredient marked on sale; a missing flag is falsy. */
  predicate OnSale(i: Ingredient) {
    i.isDiscounted == Some(true)
  }

  /** The number of on-sale ingredients, counted one by one. */
  function DiscountedCount(ings: seq<Ingredient>): (n: nat)
    ensures n <= |ings|
    ensures n == 0 <==> forall k :: 0 <= k < |ings| ==> !OnSale(ings[k])
    ensures n == |ings| <==> forall k :: 0 <= k < |ings| ==> OnSale(ings[k])
  {
    if |ings| == 0 then 0
    else
      var rest := DiscountedCount(ings[1..]);
      assert forall k :: 1 <= k < |ings| ==> ings[k] == ings[1..][k - 1];
      (if OnSale(ings[0]) then 1 else 0) + rest
  }

  /** The card's `ingredients.filter(ing => ing.isDiscounted).length` is that count. */
  lemma {:induction false} DiscountedCountIsFilterLength(ings: seq<Ingredient>)
    ensures |Filter(ings, OnSale)| == DiscountedCount(ings)
  {
    if |ings| > 0 {
      DiscountedCountIsFilterLength(ings[1..]);
    }
  }

  /** Counting two lists together is counting each. */
  lemma {:induction false} DiscountedCountAppend(a: seq<Ingredient>, b: seq<Ingredient>)
    ensures DiscountedCount(a + b) == DiscountedCount(a) + DiscountedCount(b)
  {
    if |a| > 0 {
      assert (a + b)[0] == a[0];
      assert (a + b)[1..] == a[1..] + b;
      DiscountedCountAppend(a[1..], b);
    } else {
      assert a + b == b;
    }
  }

  /** `ingredients.slice(0, showFullRecipe ? undefined : 3)`. */
  function ShownIngredients(ings: seq<Ingredient>, expanded: bool): (shown: seq<Ingredient>)
    ensures shown <= ings
    ensures expanded ==> shown == ings
    ensures !expanded ==> |shown| == Min(PreviewSize, |ings|)
  {
    if expanded then ings else ings[..Min(PreviewSize, |ings|)]
  }

  /** The N of the "+N more ingredients..." line, present only on a collapsed card with more than three. */
  function MoreCount(ings: seq<Ingredient>, expanded: bool): (more: Option<nat>)
    ensures more.Some? <==> !expanded && |ings| > PreviewSize
    ensures more.Some? ==> more.value + PreviewSize == |ings|
  {
    if !expanded && |ings| > PreviewSize then Some(|ings| - PreviewSize) else None
  }

  /** The listed ingredients and the hidden count together account for every ingredient, in order. */
  lemma PreviewAccountsForAll(ings: seq<Ingredient>, expanded: bool)
    ensures |ShownIngredients(ings, expanded)| + MoreCount(ings, expanded).GetOr(0) == |ings|
    ensures ShownIngredients(ings, expanded) + ings[|ShownIngredients(ings, expanded)|..] == ings
    ensures MoreCount(ings, expanded).None? ==> ShownIngredients(ings, expanded) == ings
  {
  }

  /** Expanded, each step with its 1-based number; collapsed, no steps. */
  function NumberedSteps(steps: seq<string>, expanded: bool): (numbered: seq<(nat, string)>)
    ensures !expanded ==> numbered == []
    ensures expanded ==> |numbered| == |steps|
    ensures expanded ==> forall k :: 0 <= k < |numbered| ==> numbered[k].1 == steps[k]
    ensures expanded && |numbered| > 0 ==> numbered[0].0 == 1
    ensures forall k :: 0 <= k < |numbered| - 1 ==> numbered[k + 1].0 == numbered[k].0 + 1
  {
    if expanded then seq(|steps|, k requires 0 <= k < |steps| => (k + 1, steps[k])) else []
  }

  /** One row of the ingredient list: its text, its sale colouring, and whether it carries an "ON SALE" badge. */
  datatype IngredientLine = IngredientLine(text: string, highlighted: bool, saleBadge: bool)

  /** `{amount} {unit}{" "}{name}`. */
  function LineText(i: Ingredient): string {
    i.amount + " " + i.unit + " " + i.name
  }

  /** What a card displays. Optional badges are `None` when not rendered. */
  datatype CardView = CardView(
    title: string,
    description: Option<string>,
    difficulty: Option<Difficulty>,
    timeBadge: Option<int>,
    servings: int,
    calories: NumberSlot,
    cuisine: Option<string>,
    discountedBadge: Option<nat>,
    lines: seq<IngredientLine>,
    more: Option<nat>,
    steps: seq<(nat, string)>,
    toggleLabel: string)

  /** A JSX `{x && ...}` guard on an optional string: absent and empty render nothing. */
  function ShownText(s: Option<string>): (r: Option<string>)
    ensures r.Some? <==> s.Some? && s.value != ""
    ensures r.Some? ==> r == s
  {
    if s.Some? && s.value != "" then s else None
  }

  /**
   * What `{n && <Badge>…</Badge>}` puts on the page for an optional number: nothing
   * when absent, the bare number when it is 0 (the falsy value itself is rendered),
   * and the badge otherwise.
   */
  datatype NumberSlot = Hidden | Bare(n: int) | Badge(n: int)

  /** The guard on an optional number: only an absent value renders nothing. */
  function ShownNumber(n: Option<int>): (r: NumberSlot)
    ensures r.Hidden? <==> n.None?
    ensures r.Bare? <==> n == Some(0)
    ensures r.Badge? <==> n.Some? && n.value != 0
    ensures !r.Hidden? ==> r.n == n.value
  {
    match n
    case None => Hidden
    case Some(v) => if v == 0 then Bare(0) else Badge(v)
  }

  function ToggleLabel(expanded: bool): string {
    if expanded then "Show Less" else "View Full Recipe"
  }

  /** The parts both cards render alike; `sale` says whether rows carry the "ON SALE" badge. */
  function Layout(r: Recipe, expanded: bool, discountedBadge: Option<nat>, sale: bool): (v: CardView)
    ensures |v.lines| == |ShownIngredients(r.ingredients, expanded)| <= |r.ingredients|
    ensures forall k :: 0 <= k < |v.lines| ==>
      v.lines[k] == IngredientLine(LineText(r.ingredients[k]), OnSale(r.ingredients[k]), sale && OnSale(r.ingredients[k]))
  {
    var shown := ShownIngredients(r.ingredients, expanded);
    CardView(
      r.title, ShownText(r.description), r.difficulty_level,
      if TotalTime(r) > 0 then Some(TotalTime(r)) else None,
      r.servings, ShownNumber(r.calories), ShownText(r.cuisine_type),
      discountedBadge,
      seq(|shown|, k requires 0 <= k < |shown| =>
        IngredientLine(LineText(shown[k]), OnSale(shown[k]), sale && OnSale(shown[k]))),
      MoreCount(r.ingredients, expanded),
      NumberedSteps(r.cooking_steps, expanded),
      ToggleLabel(expanded))
  }

  /** `RecipeCard`. */
  function Card(r: Recipe, expanded: bool): (v: CardView)
    ensures v.timeBadge.Some? <==> TotalTime(r) > 0
    ensures v.timeBadge.Some? ==> v.timeBadge.value == TotalTime(r)
    ensures v.discountedBadge.Some? <==> exists k :: 0 <= k < |r.ingredients| && OnSale(r.ingredients[k])
    ensures v.discountedBadge.Some? ==> v.discountedBadge.value == DiscountedCount(r.ingredients)
    ensures |v.lines| == |ShownIngredients(r.ingredients, expanded)|
    ensures forall k :: 0 <= k < |v.lines| ==>
      v.lines[k].text == LineText(r.ingredients[k])
      && v.lines[k].highlighted == v.lines[k].saleBadge == OnSale(r.ingredients[k])
    ensures v.more == MoreCount(r.ingredients, expanded)
    ensures v.steps == NumberedSteps(r.cooking_steps, expanded)
    ensures v.calories == ShownNumber(r.calories)
  {
    var n := |Filter(r.ingredients, OnSale)|;
    DiscountedCountIsFilterLength(r.ingredients);
    Layout(r, expanded, if n > 0 then Some(n) else None, true)
  }

  /** `RecipeCard_sm`: no discounted-ingredient badge and no "ON SALE" badges. */
  function SmallCard(r: Recipe, expanded: bool): (v: CardView)
    ensures v.discountedBadge.None?
    ensures forall k :: 0 <= k < |v.lines| ==> !v.lines[k].saleBadge
    ensures |v.lines| == |ShownIngredients(r.ingredients, expanded)|
    ensures forall k :: 0 <= k < |v.lines| ==> v.lines[k].highlighted == OnSale(r.ingredients[k])
  {
    Layout(r, expanded, None, false)
  }

  /** The two cards show the same time, preview, hidden count, steps and row texts. */
  lemma CardsAgree(r: Recipe, expanded: bool)
    ensures SmallCard(r, expanded).timeBadge == Card(r, expanded).timeBadge
    ensures SmallCard(r, expanded).more == Card(r, expanded).more
    ensures SmallCard(r, expanded).steps == Card(r, expanded).steps
    ensures SmallCard(r, expanded).calories == Card(r, expanded).calories
    ensures |SmallCard(r, expanded).lines| == |Card(r, expanded).lines|
    ensures forall k :: 0 <= k < |Card(r, expanded).lines| ==>
      SmallCard(r, expanded).lines[k] == Card(r, expanded).lines[k].(saleBadge := false)
  {
  }
}

=== FILE: salvage.dfy ===
/** The tail repair applied to the assembled buffer before the final `JSON.parse`. */
module Salvage {
  import opened Text

  /**
   * Where `/,\s*\{$/` matches: a comma at `i`, then only white space, then a `{`
   * that ends the string.
   */
  ghost predicate DanglingAt(s: string, i: int) {
    && 0 <= i < |s| - 1
    && s[i] == ','
    && s[|s| - 1] == '{'
    && forall k :: i < k < |s| - 1 ==> IsSpace(s[k])
  }

  /** `s.replace(/,\s*\{$/g, "")`: cut a trailing comma-then-brace, with any white space between. */
  function StripDangling(s: string): (r: string)
    ensures forall i :: DanglingAt(s, i) ==> r == s[..i]
    ensures (forall i :: !DanglingAt(s, i)) ==> r == s
    ensures r <= s
  {
    if |s| > 0 && s[|s| - 1] == '{' then
      DanglingTrim(s);
      var t := TrimEnd(s[..|s| - 1]);
      if |t| > 0 && t[|t| - 1] == ',' then
        assert DanglingAt(s, |t| - 1);
        DanglingUnique(s, |t| - 1);
        t[..|t| - 1]
      else s
    else s
  }

  /** Where the expression matches, trimming the text before the brace stops just after the comma. */
  lemma DanglingTrim(s: string)
    requires |s| > 0
    ensures forall i :: DanglingAt(s, i) ==> TrimEnd(s[..|s| - 1]) == s[..i + 1]
  {
    forall i | DanglingAt(s, i) ensures TrimEnd(s[..|s| - 1]) == s[..i + 1] {
      var u := s[..|s| - 1];
      var k := TrailingStart(u);
      assert !IsSpace(u[i]);
      assert forall m :: i < m < |u| ==> IsSpace(u[m]);
    }
  }

  /** The regular expression can match at one place only. */
  lemma DanglingUnique(s: string, i: int)
    requires DanglingAt(s, i)
    ensures forall j :: DanglingAt(s, j) ==> j == i
  {
    forall j | DanglingAt(s, j) ensures j == i {
      assert !IsSpace(s[i]) && !IsSpace(s[j]);
    }
  }

  /** The two suffix tests the repair makes, read character by character. */
  lemma BracketSuffixes(s: string)
    ensures EndsWith(s, "]") <==> |s| >= 1 && s[|s| - 1] == ']'
    ensures EndsWith(s, "]]") <==> |s| >= 2 && s[|s| - 2] == ']' && s[|s| - 1] == ']'
  {
    if |s| >= 1 {
      assert s[|s| - 1..] == [s[|s| - 1]];
    }
    if |s| >= 2 {
      assert s[|s| - 2..] == [s[|s| - 2], s[|s| - 1]];
    }
  }

  /**
   * How much of `s[..n]` the bracket loop keeps: it shortens the text by one
   * while the last two characters are both `]`.
   */
  function KeptLength(s: string, n: nat): (m: nat)
    requires n <= |s|
    ensures m <= n
    ensures forall k :: m <= k < n ==> s[k] == ']'
    ensures !(m >= 2 && s[m - 2] == ']' && s[m - 1] == ']')
    ensures n >= 1 && s[n - 1] == ']' ==> m >= 1 && s[m - 1] == ']'
    decreases n
  {
    if n >= 2 && s[n - 2] == ']' && s[n - 1] == ']' then KeptLength(s, n - 1) else n
  }

  /** `while (s.endsWith("]]")) s = s.slice(0, -1)`. */
  function DropExtraBrackets(s: string): (r: string)
    ensures r <= s
    ensures !EndsWith(r, "]]")
    ensures forall k :: |r| <= k < |s| ==> s[k] == ']'
    ensures EndsWith(s, "]") ==> EndsWith(r, "]")
    ensures !EndsWith(s, "]]") ==> r == s
  {
    var r := s[..KeptLength(s, |s|)];
    BracketSuffixes(s);
    BracketSuffixes(r);
    r
  }

  /** Append `]` to a buffer that opens an array but does not close one. */
  function CloseArray(s: string): (r: string)
    ensures r == s || r == s + "]"
    ensures r == s + "]" <==> StartsWith(s, "[") && !EndsWith(s, "]")
    ensures StartsWith(r, "[") ==> EndsWith(r, "]")
    ensures !EndsWith(s, "]]") ==> !EndsWith(r, "]]")
  {
    if StartsWith(s, "[") && !EndsWith(s, "]") then
      var r := s + "]";
      assert r[|r| - 2..] == [s[|s| - 1], ']'];
      r
    else s
  }

  /** Text the repair has nothing to do to: no dangling `,{`, no `]]` at the end, and an opened array is closed. */
  ghost predicate NeedsNoRepair(t: string) {
    && (forall i :: !DanglingAt(t, i))
    && !EndsWith(t, "]]")
    && (StartsWith(t, "[") ==> EndsWith(t, "]"))
  }

  /** The first two steps of the repair: a prefix of `t` that does not end in `]]`. */
  function CutTail(t: string): (s2: string)
    ensures s2 <= t
    ensures !EndsWith(s2, "]]")
    ensures NeedsNoRepair(t) ==> s2 == t
  {
    DropExtraBrackets(StripDangling(t))
  }

  /** The three steps on text that is already trimmed. */
  function RepairTrimmed(t: string): (r: string)
    ensures exists k :: 0 <= k <= |t| && (r == t[..k] || r == t[..k] + "]")
    ensures !EndsWith(r, "]]")
    ensures StartsWith(r, "[") ==> EndsWith(r, "]")
    ensures NeedsNoRepair(t) ==> r == t
  {
    var s2 := CutTail(t);
    assert s2 == t[..|s2|];
    var r := CloseArray(s2);
    assert r == t[..|s2|] || r == t[..|s2|] + "]";
    r
  }

  /** The whole repair, applied to `fullResponse.trim()`. */
  function Repair(buffer: string): (r: string)
    ensures exists k :: 0 <= k <= |Trim(buffer)| && (r == Trim(buffer)[..k] || r == Trim(buffer)[..k] + "]")
    ensures !EndsWith(r, "]]")
    ensures StartsWith(r, "[") ==> EndsWith(r, "]")
    ensures NeedsNoRepair(Trim(buffer)) ==> r == Trim(buffer)
  {
    RepairTrimmed(Trim(buffer))
  }

  /**
   * A stream cut just after `,{` that follows a complete element: the repair drops
   * the opened element and closes the array.
   */
  lemma RepairTruncatedArray(p: string)
    requires StartsWith(p, "[") && p[|p| - 1] == '}'
    ensures Repair(p + ",{") == p + "]"
  {
    var s := p + ",{";
    TrimUnchanged(s);
    assert DanglingAt(s, |p|);
    assert s[..|p|] == p;
    assert StripDangling(s) == p;
    assert KeptLength(p, |p|) == |p|;
    assert DropExtraBrackets(p) == p;
    BracketSuffixes(p);
  }

  /** `n` closing brackets. */
  function Brackets(n: nat): (r: string)
    ensures |r| == n && forall k :: 0 <= k < n ==> r[k] == ']'
  {
    seq(n, _ => ']')
  }

  /** Every prefix that ends inside the run of brackets after `p` shrinks to `p` plus one bracket. */
  lemma {:induction false} KeptInRun(p: string, n: nat, k: nat)
    requires |p| > 0 && p[|p| - 1] == '}' && 1 <= k <= n
    ensures KeptLength(p + Brackets(n), |p| + k) == |p| + 1
  {
    var s := p + Brackets(n);
    assert s[|p| - 1] == '}';
    if k > 1 {
      assert s[|p| + k - 2] == ']' && s[|p| + k - 1] == ']';
      KeptInRun(p, n, k - 1);
    }
  }

  /** The bracket loop reduces any run of closing brackets after a `}` to one. */
  lemma DropToOneBracket(p: string, n: nat)
    requires |p| > 0 && p[|p| - 1] == '}' && n >= 1
    ensures DropExtraBrackets(p + Brackets(n)) == p + "]"
  {
    var s := p + Brackets(n);
    KeptInRun(p, n, n);
    assert s[..|p| + 1] == p + "]";
  }

  /** A complete last object with no bracket after it gets one appended. */
  lemma RepairClosesObject(p: string)
    requires StartsWith(p, "[") && p[|p| - 1] == '}'
    ensures Repair(p) == p + "]"
  {
    assert p[0] == '[';
    TrimUnchanged(p);
    assert StripDangling(p) == p;
    BracketSuffixes(p);
    assert CutTail(p) == p;
  }

  /** One or more brackets after a complete last object shrink to one. */
  lemma RepairDropsBrackets(p: string, n: nat)
    requires StartsWith(p, "[") && p[|p| - 1] == '}' && n >= 1
    ensures Repair(p + Brackets(n)) == p + "]"
  {
    var s := p + Brackets(n);
    var q := p + "]";
    assert p[0] == '[' && s[0] == '[' && s[|s| - 1] == ']';
    TrimUnchanged(s);
    assert StripDangling(s) == s;
    DropToOneBracket(p, n);
    assert CutTail(s) == q;
    assert CloseArray(q) == q by {
      assert q[..1] == p[..1];
      BracketSuffixes(q);
    }
  }

  /**
   * An array whose last complete object is followed by any number of closing
   * brackets, none included, is repaired to that object followed by exactly one.
   */
  lemma RepairCollapsesBrackets(p: string, n: nat)
    requires StartsWith(p, "[") && p[|p| - 1] == '}'
    ensures Repair(p + Brackets(n)) == p + "]"
  {
    if n == 0 {
      assert p + Brackets(n) == p;
      RepairClosesObject(p);
    } else {
      RepairDropsBrackets(p, n);
    }
  }
}

=== FILE: selection.dfy ===
/** The products the user has picked as recipe ingredients. */
module Selection {
  import opened Seqs
  import opened Types

  /** Some selected product has this id (`selectedProducts.find(p => p.id === id)` finds one). */
  predicate Selected(sel: seq<Product>, id: string) {
    exists q :: q in sel && q.id == id
  }

  /** No two selected products share an id. */
  predicate DistinctIds(sel: seq<Product>) {
    forall i, j :: 0 <= i < j < |sel| ==> sel[i].id != sel[j].id
  }

  /** `handleAddToRecipe`: append the product unless its id is already selected. */
  function AddToRecipe(sel: seq<Product>, p: Product): (r: seq<Product>)
    ensures Selected(sel, p.id) ==> r == sel
    ensures !Selected(sel, p.id) ==> r == sel + [p]
    ensures Selected(r, p.id)
    ensures DistinctIds(sel) ==> DistinctIds(r)
  {
    if Selected(sel, p.id) then sel
    else
      assert (sel + [p])[|sel|] == p;
      sel + [p]
  }

  /** Adding the same product twice is adding it once. */
  lemma AddIdempotent(sel: seq<Product>, p: Product)
    ensures AddToRecipe(AddToRecipe(sel, p), p) == AddToRecipe(sel, p)
  {
  }

  predicate OtherId(q: Product, id: string) {
    q.id != id
  }

  /** `removeFromSelected`: drop every product with this id, keep the rest in order. */
  function RemoveFromSelected(sel: seq<Product>, id: string): (r: seq<Product>)
    ensures !Selected(r, id)
    ensures Subseq(r, sel)
    ensures forall q :: q in sel && q.id != id ==> q in r
    ensures DistinctIds(sel) && Selected(sel, id) ==> |r| == |sel| - 1
    ensures !Selected(sel, id) ==> r == sel
  {
    var r := Filter(sel, q => OtherId(q, id));
    if Selected(sel, id) && DistinctIds(sel) then
      RemoveOneId(sel, id);
      r
    else if !Selected(sel, id) then
      FilterAll(sel, q => OtherId(q, id));
      r
    else r
  }

  lemma {:induction false} RemoveOneId(sel: seq<Product>, id: string)
    requires DistinctIds(sel) && Selected(sel, id)
    ensures |Filter(sel, q => OtherId(q, id))| == |sel| - 1
  {
    assert DistinctIds(sel[1..]) by {
      forall i, j | 0 <= i < j < |sel[1..]| ensures sel[1..][i].id != sel[1..][j].id {
        assert sel[i + 1].id != sel[j + 1].id;
      }
    }
    if sel[0].id == id {
      forall i | 0 <= i < |sel[1..]| ensures sel[1..][i].id != id {
        assert sel[0].id != sel[i + 1].id;
      }
      FilterAll(sel[1..], q => OtherId(q, id));
    } else {
      var q :| q in sel && q.id == id;
      assert q in sel[1..];
      RemoveOneId(sel[1..], id);
    }
  }

  /** Removing a freshly added product restores the earlier selection. */
  lemma RemoveUndoesAdd(sel: seq<Product>, p: Product)
    requires !Selected(sel, p.id)
    ensures RemoveFromSelected(AddToRecipe(sel, p), p.id) == sel
  {
    FilterAppend(sel, [p], q => OtherId(q, p.id));
    FilterAll(sel, q => OtherId(q, p.id));
  }

  /** Generation needs at least this many selected products. */
  const MinIngredients: nat := 2

  /** The names sent to the model, one per selected product, in selection order. */
  function IngredientNames(sel: seq<Product>): (names: seq<string>)
    ensures |names| == |sel|
    ensures forall i :: 0 <= i < |sel| ==> names[i] == sel[i].product_name
  {
    seq(|sel|, i requires 0 <= i < |sel| => sel[i].product_name)
  }
}

=== FILE: seqs.dfy ===
/** Sequence operations the application borrows from JavaScript arrays. */
module Seqs {

  /** `a` can be obtained from `b` by deleting elements, keeping order. */
  ghost predicate Subseq<T>(a: seq<T>, b: seq<T>)
    decreases |b|
  {
    if a == [] then true
    else if b == [] then false
    else (a[0] == b[0] && Subseq(a[1..], b[1..])) || Subseq(a, b[1..])
  }

  /** No element occurs twice. */
  predicate NoDup<T(==)>(s: seq<T>) {
    forall i, j :: 0 <= i < j < |s| ==> s[i] != s[j]
  }

  /** `Array.prototype.filter`: the elements satisfying `p`, in their original order. */
  function Filter<T>(s: seq<T>, p: T -> bool): (r: seq<T>)
    ensures |r| <= |s|
    ensures forall x :: x in r ==> x in s && p(x)
    ensures forall x :: x in s && p(x) ==> x in r
    ensures forall x :: x in s && p(x) ==> multiset(r)[x] == multiset(s)[x]
    ensures Subseq(r, s)
  {
    if s == [] then []
    else
      var rest := Filter(s[1..], p);
      assert s == [s[0]] + s[1..];
      if p(s[0]) then [s[0]] + rest else rest
  }

  lemma {:induction false} FilterAppend<T>(a: seq<T>, b: seq<T>, p: T -> bool)
    ensures Filter(a + b, p) == Filter(a, p) + Filter(b, p)
  {
    if a == [] {
      assert a + b == b;
    } else {
      assert (a + b)[1..] == a[1..] + b;
      FilterAppend(a[1..], b, p);
    }
  }

  /** Filtering with a predicate every element satisfies changes nothing. */
  lemma {:induction false} FilterAll<T>(s: seq<T>, p: T -> bool)
    requires forall i :: 0 <= i < |s| ==> p(s[i])
    ensures Filter(s, p) == s
  {
    if s != [] {
      FilterAll(s[1..], p);
    }
  }

  /** Filtering with a predicate no element satisfies yields the empty sequence. */
  lemma {:induction false} FilterNone<T>(s: seq<T>, p: T -> bool)
    requires forall i :: 0 <= i < |s| ==> !p(s[i])
    ensures Filter(s, p) == []
  {
    if s != [] {
      FilterNone(s[1..], p);
    }
  }

  /** Two predicates that agree on the elements of `s` filter it alike. */
  lemma {:induction false} FilterCongruent<T>(s: seq<T>, p: T -> bool, q: T -> bool)
    requires forall i :: 0 <= i < |s| ==> p(s[i]) == q(s[i])
    ensures Filter(s, p) == Filter(s, q)
  {
    if s != [] {
      FilterCongruent(s[1..], p, q);
    }
  }

  /** Filtering twice by `p` then `q` is filtering once by their conjunction. */
  lemma {:induction false} FilterFilter<T>(s: seq<T>, p: T -> bool, q: T -> bool)
    ensures Filter(Filter(s, p), q) == Filter(s, x => p(x) && q(x))
  {
    if s != [] {
      FilterFilter(s[1..], p, q);
    }
  }

  /** Filtering by `p` then `q` is filtering once by any predicate equivalent to `p && q`. */
  lemma FilterThen<T>(s: seq<T>, p: T -> bool, q: T -> bool, pq: T -> bool)
    requires forall x :: pq(x) == (p(x) && q(x))
    ensures Filter(Filter(s, p), q) == Filter(s, pq)
  {
    FilterFilter(s, p, q);
    FilterCongruent(s, x => p(x) && q(x), pq);
  }

  /** A duplicate-free sequence stays duplicate-free under filtering. */
  lemma {:induction false} FilterNoDup<T>(s: seq<T>, p: T -> bool)
    requires NoDup(s)
    ensures NoDup(Filter(s, p))
  {
    if s != [] {
      assert NoDup(s[1..]) by {
        forall i, j | 0 <= i < j < |s[1..]| ensures s[1..][i] != s[1..][j] {
          assert s[i + 1] != s[j + 1];
        }
      }
      FilterNoDup(s[1..], p);
      if p(s[0]) {
        assert s[0] !in s[1..];
        assert s[0] !in Filter(s[1..], p);
      }
    }
  }

  /** The index of the first occurrence of `x` in `xs`. */
  function FirstIndex<T(==)>(xs: seq<T>, x: T): (i: nat)
    requires x in xs
    ensures i < |xs| && xs[i] == x && x !in xs[..i]
  {
    if xs[0] == x then 0
    else
      assert xs == [xs[0]] + xs[1..];
      var j := FirstIndex(xs[1..], x);
      assert xs[..j + 1] == [xs[0]] + xs[1..][..j];
      j + 1
  }

  /** An element of a prefix occurs first where it occurs first in the prefix. */
  lemma FirstIndexPrefix<T>(xs: seq<T>, n: nat, x: T)
    requires n <= |xs| && x in xs[..n]
    ensures FirstIndex(xs, x) == FirstIndex(xs[..n], x)
  {
    var j := FirstIndex(xs[..n], x);
    assert xs[..n][..j] == xs[..j];
  }

  /**
   * The first occurrence of each element, in order (iteration order of `new Set(xs)`):
   * an element listed earlier occurs first earlier in `xs`.
   */
  function Unique<T(==)>(xs: seq<T>): (r: seq<T>)
    ensures NoDup(r)
    ensures forall x :: x in r ==> x in xs
    ensures forall x :: x in xs ==> x in r
    ensures forall i, j :: 0 <= i < j < |r| ==> FirstIndex(xs, r[i]) < FirstIndex(xs, r[j])
    decreases |xs|
  {
    if xs == [] then []
    else
      var init := xs[..|xs| - 1];
      var last := xs[|xs| - 1];
      assert xs == init + [last];
      var u := Unique(init);
      forall x | x in u ensures FirstIndex(xs, x) == FirstIndex(init, x) < |init| {
        FirstIndexPrefix(xs, |init|, x);
      }
      if last in init then u
      else
        assert FirstIndex(xs, last) == |init| by {
          assert last !in xs[..|init|];
        }
        u + [last]
  }
}

=== FILE: stream.dfy ===
/**
 * Reassembling the model's streamed reply: every decoded chunk is split into
 * lines, blank lines are dropped, each line is decoded as a JSON envelope, and
 * the `response` fragments of the envelopes that decode are concatenated.
 */
module Stream {
  import opened Wrappers
  import opened Seqs
  import opened Text

  /**
   * A decoded envelope line. `response` is the text `fullResponse += json.response`
   * appends, or `None` when the property is undefined. `done` is only logged.
   */
  datatype Envelope = Envelope(response: Option<string>, done: bool)

  /** The text appended for one envelope: string concatenation turns `undefined` into "undefined". */
  function Fragment(e: Envelope): string {
    e.response.GetOr("undefined")
  }

  /** The line holds a character that is not white space. */
  predicate NonBlank(line: string) {
    exists i :: 0 <= i < |line| && !IsSpace(line[i])
  }

  /** `NonBlank` is exactly the truthiness of `line.trim()`. */
  lemma NonBlankIsTrimTruthy(line: string)
    ensures NonBlank(line) <==> Trim(line) != ""
  {
  }

  /** `chunk.split("\n").filter((line) => line.trim())` (see `NonBlankIsTrimTruthy`). */
  function ChunkLines(chunk: string): (lines: seq<string>)
    ensures forall l :: l in lines ==> NonBlank(l) && '\n' !in l
    ensures forall l :: l in Split(chunk, '\n') && NonBlank(l) ==> l in lines
    ensures Subseq(lines, Split(chunk, '\n'))
    ensures forall l :: NonBlank(l) ==> multiset(lines)[l] == multiset(Split(chunk, '\n'))[l]
  {
    Filter(Split(chunk, '\n'), NonBlank)
  }

  /** The lines of every chunk, chunk after chunk. A line cut by a chunk boundary stays cut. */
  function StreamLines(chunks: seq<string>): seq<string> {
    if chunks == [] then [] else ChunkLines(chunks[0]) + StreamLines(chunks[1..])
  }

  /**
   * The fragments of the lines that decode, in order; a line that fails to decode
   * contributes nothing. `decode` stands for `JSON.parse` followed by reading
   * `response`: `None` when it throws.
   */
  function Collect(lines: seq<string>, decode: string -> Option<Envelope>): (text: string)
    ensures NoneDecodes(lines, decode) ==> text == ""
    ensures |lines| == 1 && decode(lines[0]).Some? ==> text == Fragment(decode(lines[0]).value)
  {
    if lines == [] then "" else LineText(lines[0], decode) + Collect(lines[1..], decode)
  }

  /** Not one of the lines decodes. */
  ghost predicate NoneDecodes(lines: seq<string>, decode: string -> Option<Envelope>) {
    forall l :: l in lines ==> decode(l).None?
  }

  /** What one line adds to the buffer. */
  function LineText(line: string, decode: string -> Option<Envelope>): string {
    match decode(line)
    case Some(e) => Fragment(e)
    case None => ""
  }

  /** The assembled buffer `fullResponse` once the stream is exhausted. */
  function Assembled(chunks: seq<string>, decode: string -> Option<Envelope>): (text: string)
    ensures |chunks| == 1 ==> text == Collect(ChunkLines(chunks[0]), decode)
    ensures NoneDecodes(StreamLines(chunks), decode) ==> text == ""
  {
    if |chunks| == 1 then
      assert chunks == [chunks[0]];
      SingleChunk(chunks[0]);
      Collect(StreamLines(chunks), decode)
    else
      Collect(StreamLines(chunks), decode)
  }

  lemma {:induction false} CollectAppend(a: seq<string>, b: seq<string>, decode: string -> Option<Envelope>)
    ensures Collect(a + b, decode) == Collect(a, decode) + Collect(b, decode)
  {
    if a == [] {
      assert a + b == b;
    } else {
      assert (a + b)[1..] == a[1..] + b;
      CollectAppend(a[1..], b, decode);
    }
  }

  lemma {:induction false} StreamLinesAppend(a: seq<string>, b: seq<string>)
    ensures StreamLines(a + b) == StreamLines(a) + StreamLines(b)
  {
    if a == [] {
      assert a + b == b;
    } else {
      assert (a + b)[0] == a[0];
      assert (a + b)[1..] == a[1..] + b;
      StreamLinesAppend(a[1..], b);
      calc {
        StreamLines(a + b);
        ChunkLines(a[0]) + StreamLines(a[1..] + b);
        ChunkLines(a[0]) + (StreamLines(a[1..]) + StreamLines(b));
        (ChunkLines(a[0]) + StreamLines(a[1..])) + StreamLines(b);
      }
    }
  }

  /** Every line handed to the decoder is non-blank and holds no `'\n'`. */
  lemma {:induction false} StreamLinesNonBlank(chunks: seq<string>)
    ensures forall l :: l in StreamLines(chunks) ==> NonBlank(l) && '\n' !in l
  {
    if chunks != [] {
      StreamLinesNonBlank(chunks[1..]);
    }
  }

  /** The buffer is built chunk by chunk: the stream's buffer is the join of its parts' buffers. */
  lemma AssembledChunkwise(a: seq<string>, b: seq<string>, decode: string -> Option<Envelope>)
    ensures Assembled(a + b, decode) == Assembled(a, decode) + Assembled(b, decode)
  {
    StreamLinesAppend(a, b);
    CollectAppend(StreamLines(a), StreamLines(b), decode);
  }

  predicate Decodes(decode: string -> Option<Envelope>, line: string) {
    decode(line).Some?
  }

  /** Lines that fail to decode are skipped: dropping them beforehand changes nothing. */
  lemma {:induction false} CollectSkipsFailures(lines: seq<string>, decode: string -> Option<Envelope>)
    ensures Collect(lines, decode) == Collect(Filter(lines, l => Decodes(decode, l)), decode)
  {
    if lines != [] {
      CollectSkipsFailures(lines[1..], decode);
      if Decodes(decode, lines[0]) {
        assert ([lines[0]] + Filter(lines[1..], l => Decodes(decode, l)))[1..]
            == Filter(lines[1..], l => Decodes(decode, l));
      }
    }
  }

  /** A stream of one chunk yields that chunk's lines. */
  lemma SingleChunk(chunk: string)
    ensures StreamLines([chunk]) == ChunkLines(chunk)
  {
    assert [chunk][1..] == [];
    assert ChunkLines(chunk) + [] == ChunkLines(chunk);
  }

  /** A chunk of three non-blank lines yields exactly those lines. */
  lemma ThreeLines(a: string, bad: string, b: string)
    requires NonBlank(a) && NonBlank(bad) && NonBlank(b)
    requires '\n' !in a && '\n' !in bad && '\n' !in b
    ensures ChunkLines(a + "\n" + bad + "\n" + b) == [a, bad, b]
  {
    var parts := [a, bad, b];
    assert Join(parts, '\n') == a + "\n" + bad + "\n" + b by {
      assert parts[1..][1..] == [b];
      assert Join(parts[1..], '\n') == bad + ['\n'] + b;
    }
    SplitJoin(parts, '\n');
    FilterAll(parts, NonBlank);
  }

  /** A line that does not decode between two that do leaves their fragments adjacent, in order. */
  lemma InvalidLineSkipped(a: string, bad: string, b: string, decode: string -> Option<Envelope>)
    requires NonBlank(a) && NonBlank(bad) && NonBlank(b)
    requires '\n' !in a && '\n' !in bad && '\n' !in b
    requires decode(a).Some? && decode(bad).None? && decode(b).Some?
    ensures Assembled([a + "\n" + bad + "\n" + b], decode)
         == Fragment(decode(a).value) + Fragment(decode(b).value)
  {
    var chunk := a + "\n" + bad + "\n" + b;
    ThreeLines(a, bad, b);
    SingleChunk(chunk);
    var fa, fb := LineText(a, decode), LineText(b, decode);
    assert [a, bad, b][1..] == [bad, b];
    assert [bad, b][1..] == [b];
    assert [b][1..] == [];
    assert LineText(bad, decode) == "";
    calc {
      Assembled([chunk], decode);
      Collect([a, bad, b], decode);
      fa + Collect([bad, b], decode);
      fa + ("" + Collect([b], decode));
      { assert "" + Collect([b], decode) == Collect([b], decode); }
      fa + Collect([b], decode);
      fa + (fb + "");
      { assert fb + "" == fb; }
      fa + fb;
    }
  }

  /** One more line at the end adds its text at the end. */
  lemma CollectStep(lines: seq<string>, k: nat, decode: string -> Option<Envelope>)
    requires k < |lines|
    ensures Collect(lines[..k + 1], decode) == Collect(lines[..k], decode) + LineText(lines[k], decode)
  {
    assert lines[..k + 1] == lines[..k] + [lines[k]];
    CollectAppend(lines[..k], [lines[k]], decode);
    assert [lines[k]][1..] == [];
  }

  /** One more chunk at the end adds the text of its lines at the end. */
  lemma AssembledStep(chunks: seq<string>, c: nat, decode: string -> Option<Envelope>)
    requires c < |chunks|
    ensures Collect(StreamLines(chunks[..c + 1]), decode) == Collect(StreamLines(chunks[..c]), decode) + Collect(ChunkLines(chunks[c]), decode)
  {
    assert chunks[..c + 1] == chunks[..c] + [chunks[c]];
    AssembledChunkwise(chunks[..c], [chunks[c]], decode);
    SingleChunk(chunks[c]);
  }

  /** The `for (const line of lines)` loop with its per-line `try`/`catch`. */
  method ReadChunk(lines: seq<string>, decode: string -> Option<Envelope>) returns (text: string)
    ensures text == Collect(lines, decode)
  {
    text := "";
    var k := 0;
    while k < |lines|
      invariant 0 <= k <= |lines|
      invariant text == Collect(lines[..k], decode)
    {
      CollectStep(lines, k, decode);
      match decode(lines[k]) {
        case Some(e) =>
          text := text + Fragment(e);
        case None =>
      }
      k := k + 1;
    }
    assert lines[..k] == lines;
  }

  /** The `reader.read()` loop, over chunks the `TextDecoder` has already decoded. */
  method ReadStream(chunks: seq<string>, decode: string -> Option<Envelope>) returns (fullResponse: string)
    ensures fullResponse == Assembled(chunks, decode)
  {
    fullResponse := "";
    var c := 0;
    while c < |chunks|
      invariant 0 <= c <= |chunks|
      invariant fullResponse == Collect(StreamLines(chunks[..c]), decode)
    {
      var text := ReadChunk(ChunkLines(chunks[c]), decode);
      AssembledStep(chunks, c, decode);
      fullResponse := fullResponse + text;
      c := c + 1;
    }
    assert chunks[..c] == chunks;
  }
}

=== FILE: text.dfy ===
/** The JavaScript string primitives the application relies on. */
module Text {

  /**
   * ECMAScript WhiteSpace or LineTerminator: the characters `String.prototype.trim`
   * removes and the regular-expression class `\s` matches.
   */
  predicate IsSpace(c: char) {
    var n := c as int;
    n == 0x09 || n == 0x0A || n == 0x0B || n == 0x0C || n == 0x0D || n == 0x20
    || n == 0xA0 || n == 0x1680 || (0x2000 <= n <= 0x200A) || n == 0x2028
    || n == 0x2029 || n == 0x202F || n == 0x205F || n == 0x3000 || n == 0xFEFF
  }

  /** Number of leading white-space characters. */
  function LeadingSpaces(s: string): (k: nat)
    ensures k <= |s|
    ensures forall i :: 0 <= i < k ==> IsSpace(s[i])
    ensures k < |s| ==> !IsSpace(s[k])
  {
    if s == [] || !IsSpace(s[0]) then 0 else 1 + LeadingSpaces(s[1..])
  }

  /** Index where the trailing run of white space begins. */
  function TrailingStart(s: string): (k: nat)
    ensures k <= |s|
    ensures forall i :: k <= i < |s| ==> IsSpace(s[i])
    ensures 0 < k ==> !IsSpace(s[k - 1])
  {
    if s == [] || !IsSpace(s[|s| - 1]) then |s| else TrailingStart(s[..|s| - 1])
  }

  /** `s.trimEnd()`. */
  function TrimEnd(s: string): (r: string)
    ensures r <= s
    ensures forall i :: |r| <= i < |s| ==> IsSpace(s[i])
    ensures r == [] || !IsSpace(r[|r| - 1])
  {
    s[..TrailingStart(s)]
  }

  /** `s.trim()`: `s` without its leading and trailing white space. */
  function Trim(s: string): (r: string)
    ensures exists i :: TrimmedAt(s, r, i)
    ensures r == [] || (!IsSpace(r[0]) && !IsSpace(r[|r| - 1]))
    ensures r == [] <==> forall i :: 0 <= i < |s| ==> IsSpace(s[i])
  {
    var a := LeadingSpaces(s);
    var r := TrimEnd(s[a..]);
    assert TrimmedAt(s, r, a);
    r
  }

  /** A string that neither starts nor ends with white space trims to itself. */
  lemma TrimUnchanged(s: string)
    requires s != [] && !IsSpace(s[0]) && !IsSpace(s[|s| - 1])
    ensures Trim(s) == s
  {
    assert s[0..] == s;
  }

  /** `r` sits in `s` at offset `i` with only white space around it. */
  ghost predicate TrimmedAt(s: string, r: string, i: nat) {
    && i + |r| <= |s|
    && s[i..i + |r|] == r
    && (forall k :: 0 <= k < i ==> IsSpace(s[k]))
    && (forall k :: i + |r| <= k < |s| ==> IsSpace(s[k]))
  }

  /** `s.startsWith(p)`. */
  predicate StartsWith(s: string, p: string) {
    |p| <= |s| && s[..|p|] == p
  }

  /** `s.endsWith(p)`. */
  predicate EndsWith(s: string, p: string) {
    |p| <= |s| && s[|s| - |p|..] == p
  }

  /** `needle` occurs in `hay` starting at index `i`. */
  ghost predicate OccursAt(hay: string, needle: string, i: int) {
    0 <= i && i + |needle| <= |hay| && hay[i..i + |needle|] == needle
  }

  /** `hay.includes(needle)`. */
  predicate Contains(hay: string, needle: string)
    decreases |hay|
  {
    StartsWith(hay, needle) || (hay != [] && Contains(hay[1..], needle))
  }

  /** `includes` holds exactly when the needle occurs at some index. */
  lemma {:induction false} ContainsOccurs(hay: string, needle: string)
    ensures Contains(hay, needle) <==> exists i :: OccursAt(hay, needle, i)
  {
    if StartsWith(hay, needle) {
      assert OccursAt(hay, needle, 0);
    } else {
      assert !OccursAt(hay, needle, 0) by {
        if |needle| <= |hay| {
          assert hay[0..0 + |needle|] == hay[..|needle|];
        }
      }
      if hay == [] {
        assert forall i :: OccursAt(hay, needle, i) ==> i == 0;
      } else {
        ContainsOccurs(hay[1..], needle);
        if exists i :: OccursAt(hay[1..], needle, i) {
          var i :| OccursAt(hay[1..], needle, i);
          assert hay[1..][i..i + |needle|] == hay[i + 1..i + 1 + |needle|];
          assert OccursAt(hay, needle, i + 1);
        }
        if exists i :: OccursAt(hay, needle, i) {
          var i :| OccursAt(hay, needle, i);
          assert hay[1..][i - 1..i - 1 + |needle|] == hay[i..i + |needle|];
          assert OccursAt(hay[1..], needle, i - 1);
        }
      }
    }
  }

  /** `c.toLowerCase()` on the ASCII range; every other character is its own lower case. */
  function LowerChar(c: char): (d: char)
    ensures 'A' <= c <= 'Z' ==> d as int == c as int + 32
    ensures !('A' <= c <= 'Z') ==> d == c
    ensures !('A' <= d <= 'Z')
  {
    if 'A' <= c <= 'Z' then (c as int + 32) as char else c
  }

  /** `s.toLowerCase()`, character by character. */
  function Lower(s: string): (r: string)
    ensures |r| == |s|
    ensures forall i :: 0 <= i < |s| ==> r[i] == LowerChar(s[i])
  {
    seq(|s|, i requires 0 <= i < |s| => LowerChar(s[i]))
  }

  /** Lower-casing twice is lower-casing once. */
  lemma LowerIdempotent(s: string)
    ensures Lower(Lower(s)) == Lower(s)
  {
  }

  /** Case-insensitive substring search, as `a.toLowerCase().includes(b.toLowerCase())`. */
  predicate ContainsIgnoringCase(hay: string, needle: string) {
    Contains(Lower(hay), Lower(needle))
  }

  /** `s.split(sep)` for a one-character separator: the pieces between separators. */
  function Split(s: string, sep: char): (r: seq<string>)
    ensures |r| >= 1
    ensures forall i :: 0 <= i < |r| ==> sep !in r[i]
  {
    if s == [] then [""]
    else
      var rest := Split(s[1..], sep);
      if s[0] == sep then [""] + rest
      else [[s[0]] + rest[0]] + rest[1..]
  }

  /** `parts.join(sep)`. */
  function Join(parts: seq<string>, sep: char): string {
    if parts == [] then ""
    else if |parts| == 1 then parts[0]
    else parts[0] + [sep] + Join(parts[1..], sep)
  }

  /** Joining the pieces of a split gives the original string back. */
  lemma {:induction false} JoinSplit(s: string, sep: char)
    ensures Join(Split(s, sep), sep) == s
  {
    if s != [] {
      var rest := Split(s[1..], sep);
      JoinSplit(s[1..], sep);
      if s[0] == sep {
        assert Join([""] + rest, sep) == [sep] + Join(rest, sep) by {
          assert ([""] + rest)[1..] == rest;
        }
      } else {
        var r := [[s[0]] + rest[0]] + rest[1..];
        assert r[1..] == rest[1..];
        if |rest| > 1 {
          assert Join(rest, sep) == rest[0] + [sep] + Join(rest[1..], sep);
        }
        assert Join(r, sep) == [s[0]] + Join(rest, sep);
      }
    }
  }

  /** A string free of the separator splits into itself alone. */
  lemma {:induction false} SplitSingle(s: string, sep: char)
    requires sep !in s
    ensures Split(s, sep) == [s]
  {
    if s != [] {
      SplitSingle(s[1..], sep);
      assert [s[0]] + s[1..] == s;
    }
  }

  /** Splitting at a separator that follows a separator-free prefix. */
  lemma {:induction false} SplitAfter(p: string, t: string, sep: char)
    requires sep !in p
    ensures Split(p + [sep] + t, sep) == [p] + Split(t, sep)
  {
    if p == [] {
      assert (p + [sep] + t)[1..] == t;
    } else {
      assert (p + [sep] + t)[1..] == p[1..] + [sep] + t;
      SplitAfter(p[1..], t, sep);
      assert [p[0]] + p[1..] == p;
    }
  }

  /** Splitting a join of separator-free pieces gives the pieces back. */
  lemma {:induction false} SplitJoin(parts: seq<string>, sep: char)
    requires |parts| >= 1
    requires forall i :: 0 <= i < |parts| ==> sep !in parts[i]
    ensures Split(Join(parts, sep), sep) == parts
  {
    if |parts| == 1 {
      SplitSingle(parts[0], sep);
    } else {
      SplitJoin(parts[1..], sep);
      SplitAfter(parts[0], Join(parts[1..], sep), sep);
    }
  }
}

=== FILE: types.dfy ===
/** The records the application passes around. */
module Types {
  import opened Wrappers
  import opened Seqs

  /** The four retailers a product can come from. */
  datatype Store = Woolworths | Coles | Aldi | IGA

  /** The retailer's name as it appears in `store_name`. */
  function StoreName(s: Store): string {
    match s
    case Woolworths => "Woolworths"
    case Coles => "Coles"
    case Aldi => "Aldi"
    case IGA => "IGA"
  }

  /** The store check boxes offered by the filter bar, in display order. */
  const StoreOptions: seq<string> := ["Woolworths", "Coles", "Aldi", "IGA"]

  /** The filter bar offers exactly the four retailer names, each once. */
  lemma StoreOptionsAreStoreNames()
    ensures |StoreOptions| == 4 && NoDup(StoreOptions)
    ensures forall s: Store :: StoreName(s) in StoreOptions
    ensures forall n :: n in StoreOptions ==> exists s: Store :: StoreName(s) == n
    ensures forall s: Store, t: Store :: StoreName(s) == StoreName(t) ==> s == t
  {
    assert StoreName(Woolworths) == StoreOptions[0];
    assert StoreName(Coles) == StoreOptions[1];
    assert StoreName(Aldi) == StoreOptions[2];
    assert StoreName(IGA) == StoreOptions[3];
  }

  /** A discounted product row of the catalog. Prices are in dollars, `percentage_off` in percent. */
  datatype Product = Product(
    id: string,
    product_name: string,
    original_price: real,
    discounted_price: real,
    percentage_off: real,
    store_name: Store,
    category: Option<string>,
    image_url: Option<string>,
    product_url: Option<string>,
    scraped_at: string,
    is_active: bool,
    created_at: string,
    updated_at: string)

  /** JavaScript truthiness of `product.category`: present and not the empty string. */
  predicate HasCategory(p: Product) {
    p.category.Some? && p.category.value != ""
  }

  /** One line of a recipe's ingredient list. */
  datatype Ingredient = Ingredient(
    name: string,
    amount: string,
    unit: string,
    isDiscounted: Option<bool>,
    productId: Option<string>)

  datatype Difficulty = Easy | Medium | Hard

  /** A recipe as the `Recipe` interface declares it. Minutes, calories and servings are whole numbers. */
  datatype Recipe = Recipe(
    id: string,
    title: string,
    description: Option<string>,
    ingredients: seq<Ingredient>,
    cooking_steps: seq<string>,
    calories: Option<int>,
    prep_time_minutes: Option<int>,
    cook_time_minutes: Option<int>,
    servings: int,
    difficulty_level: Option<Difficulty>,
    cuisine_type: Option<string>,
    generated_from_discounts: bool,
    discount_products_used: seq<string>,
    created_at: string,
    updated_at: string)

  /**
   * An object carrying any subset of the `Recipe` properties: what a parsed
   * model element is, and what object spreading builds from it. `None` is an
   * absent property.
   */
  datatype RecipeFields = RecipeFields(
    id: Option<string>,
    title: Option<string>,
    description: Option<string>,
    ingredients: Option<seq<Ingredient>>,
    cooking_steps: Option<seq<string>>,
    calories: Option<int>,
    prep_time_minutes: Option<int>,
    cook_time_minutes: Option<int>,
    servings: Option<int>,
    difficulty_level: Option<Difficulty>,
    cuisine_type: Option<string>,
    generated_from_discounts: Option<bool>,
    discount_products_used: Option<seq<string>>,
    created_at: Option<string>,
    updated_at: Option<string>)

  /** The object with no properties. */
  const NoFields := RecipeFields(None, None, None, None, None, None, None, None,
                                 None, None, None, None, None, None, None)

  /** The properties of a complete recipe. */
  function FieldsOf(r: Recipe): (f: RecipeFields)
    ensures f.id == Some(r.id) && f.title == Some(r.title)
    ensures f.ingredients == Some(r.ingredients) && f.cooking_steps == Some(r.cooking_steps)
    ensures f.servings == Some(r.servings)
    ensures f.generated_from_discounts == Some(r.generated_from_discounts)
    ensures f.discount_products_used == Some(r.discount_products_used)
    ensures f.created_at == Some(r.created_at) && f.updated_at == Some(r.updated_at)
  {
    RecipeFields(Some(r.id), Some(r.title), r.description, Some(r.ingredients),
                 Some(r.cooking_steps), r.calories, r.prep_time_minutes,
                 r.cook_time_minutes, Some(r.servings), r.difficulty_level,
                 r.cuisine_type, Some(r.generated_from_discounts),
                 Some(r.discount_products_used), Some(r.created_at), Some(r.updated_at))
  }

  /** Every property the `Recipe` interface requires is present. */
  predicate Complete(f: RecipeFields) {
    && f.id.Some? && f.title.Some? && f.ingredients.Some? && f.cooking_steps.Some?
    && f.servings.Some? && f.generated_from_discounts.Some?
    && f.discount_products_used.Some? && f.created_at.Some? && f.updated_at.Some?
  }

  /** The object read as a `Recipe`, when it carries every required property. */
  function AsRecipe(f: RecipeFields): (r: Option<Recipe>)
    ensures r.Some? <==> Complete(f)
    ensures r.Some? ==> FieldsOf(r.value) == f
  {
    if Complete(f) then
      Some(Recipe(f.id.value, f.title.value, f.description, f.ingredients.value,
                  f.cooking_steps.value, f.calories, f.prep_time_minutes,
                  f.cook_time_minutes, f.servings.value, f.difficulty_level,
                  f.cuisine_type, f.generated_from_discounts.value,
                  f.discount_products_used.value, f.created_at.value, f.updated_at.value))
    else None
  }

  /** Reading the properties of a recipe back gives the same recipe. */
  lemma AsRecipeFieldsOf(r: Recipe)
    ensures AsRecipe(FieldsOf(r)) == Some(r)
  {
  }

  /** The page's filter controls. */
  datatype FilterState = FilterState(
    stores: seq<string>,
    categories: seq<string>,
    searchTerm: string,
    minDiscount: real,
    maxPrice: real)

  /** The price ceiling that stands for "no limit". */
  const UnboundedPrice: real := 1000.0

  /** The filters the page starts with. */
  const InitialFilters := FilterState([], [], "", 0.0, UnboundedPrice)
}

=== FILE: wrappers.dfy ===
/** Optional values and error-carrying results, as used throughout the model. */
module Wrappers {

  /** A value that may be absent: a TypeScript optional property, or `undefined`. */
  datatype Option<+T> = None | Some(value: T) {

    /** The wrapped value, or `default` when absent (TypeScript's `x ?? default`). */
    function GetOr(default: T): T {
      match this
      case Some(v) => v
      case None => default
    }

    /** This value when present, otherwise `other` (object-spread override). */
    function Or(other: Option<T>): Option<T> {
      if Some? then this else other
    }
  }

  /** The outcome of a computation that may throw: a value or an error message. */
  datatype Result<+R, +E> = Success(value: R) | Failure(error: E)
}
